=== FILE: README.md ===
# Movie barcode generator — a Dafny model of the frame reducers and the column dispatch

A movie barcode is an image with one column per sampled video frame. Each
column holds that frame's rows, and each row is reduced to its average colour.
The repository builds it twice:

- a Go program (`avgframe.go` and the `imageprocess` package) that splits the
  frame indices over eight workers, averages each frame row and writes the
  result into a shared pixel grid;
- a Rust program (`src/main.rs`) that reduces every decoded RGB24 frame to a
  column of colours, transposes the columns into a row-major RGB raster and
  writes it as a binary PPM (Netpbm "P6") file.

The model has five modules:

- `Ints` covers machine integers and Go's truncating division.
- `ImageProcess` models the Go pixel helpers: the row average, the 16-bit to
  8-bit narrowing, and pixel and grid addition.
- `AvgFrame` models the Go dispatch: the guard, the grid allocation, the
  worker partition, the stride loop with its column writes, and the progress
  counter. It also has the schedule the dispatcher evidently intends.
- `Barcode` models the Rust reducer, the transpose and the PPM bytes, plus the
  row reducer evidently intended.
- `Wrappers` holds `Result` and `Option`.

The model makes these modelling choices:

- Video frames come from an abstract function from frame index to pixel grid
  (`FrameSource`). The Go program gets them from `getFrame`, which calls ffmpeg.
- The eight goroutines are joined by a `WaitGroup`, and a panic in any one
  of them ends the process. So the run panics when any worker panics. When
  no worker panics but some worker's loop cannot advance, the run never
  ends. Otherwise every worker completes, and the grid is computed by
  running the workers one after another. Their ranges are disjoint, so the
  order does not change the grid.
- A failure of the Go run is a value of `Fault`:
  - `TooManyFrames` is the `log.Fatal` of the guard.
  - `RuntimePanic` is a negative `make` size or a division by zero in
    `main`, or an index out of range or the average of an empty frame row
    in any worker.
  - `NeverTerminates` is a run in which no worker panics but some worker's
    loop never ends, because its stride is not positive.
- A pure helper that panics on bad input requires that input away instead.
  This covers `AveragePixels` on an empty row, `addPixels` on smaller
  operands, and the Rust slice and index panics.

The model follows the code as written (`AvgFrame.Run`). Next to it,
`AvgFrame.CorrectedRun` is the schedule the dispatcher evidently aims at,
which the code does not implement (`avgframe.go:44-50`, `avgframe.go:58-63`):

- the stride between sampled frames is `totalFrames / numFrames`;
- column c holds frame `c * stride`;
- the columns are split over the workers, and the last worker takes the
  remainder of that split.

`AvgFrame.SampleIndicesInRange` shows that under this schedule every sample
index `c * stride` names an existing frame, and that later columns come
from later frames.

## Model

| member | source | states |
|---|---|---|
| Ints.TruncDiv | imageprocess/imageprocess.go:18-20 | Go's `/` on `int` truncates toward zero: the remainder `a - q*b` is smaller than the divisor in magnitude and is zero or has the sign of the dividend |
| Ints.TruncDivNonneg | imageprocess/imageprocess.go:18-20 | on a non-negative dividend and positive divisor the truncating quotient is the floor quotient |
| Ints.TruncDivBetween | imageprocess/imageprocess.go:18-20 | a quotient of a sum lying between `n*lo` and `n*hi` lies between `lo` and `hi` |
| ImageProcess.AveragePixels | imageprocess/imageprocess.go:11-23 | defined on non-empty rows only (the source divides by `len(row)`); each channel of the result is that channel's sum over the row divided by the length, truncated |
| ImageProcess.AccumulateIsChannelSum | imageprocess/imageprocess.go:12-16 | the accumulator loop (`avg.add(pixel)` from black, left to right) yields, per channel, the sum of the row's channel values |
| ImageProcess.AverageExample | imageprocess/imageprocess.go:11-23 | `[(0,0,0),(10,20,30)]` averages to `(5,10,15)` |
| ImageProcess.AverageOfUniform | imageprocess/imageprocess.go:11-23 | a row of k ≥ 1 copies of a colour averages to exactly that colour |
| ImageProcess.AverageWithinBounds | imageprocess/imageprocess.go:11-23 | if every pixel's channel lies in `[lo, hi]` then so does the average's |
| ImageProcess.ChannelSumPermutation | imageprocess/imageprocess.go:14-16 | rows with the same multiset of pixels have the same channel sums |
| ImageProcess.AveragePermutationInvariant | imageprocess/imageprocess.go:11-23 | the average is the same for any permutation of the row |
| ImageProcess.Add | imageprocess/imageprocess.go:91-95 | each channel of the result is the reference channel sum of the two-pixel row `[p, p1]` |
| ImageProcess.AddLaws | imageprocess/imageprocess.go:91-95 | `add` is channel-wise addition; it is commutative and associative, with black as identity |
| ImageProcess.RgbaToPixel | imageprocess/imageprocess.go:72-74 | each channel c satisfies `257c <= x < 257(c+1)` for its 16-bit input x, so inputs up to 65535 give channels in [0, 255]; alpha plays no part |
| ImageProcess.RgbaToPixelInverts | imageprocess/imageprocess.go:72-74 | `rgbaToPixel(257r, 257g, 257b, a)` is `(r, g, b)` for 8-bit r, g, b and any alpha |
| ImageProcess.AddPixels | imageprocess/imageprocess.go:83-89 | requires, when `p`'s first row is non-empty, `p1` at least as large as `p` over `p`'s rows and first-row width (with an empty first row `p1` is never read); keeps `p`'s dimensions; cell `[i][j]` becomes `p[i][j] + p1[i][j]` for j below the first row's width and is unchanged elsewhere |
| AvgFrame.NewGrid | avgframe.go:39-42 | allocation succeeds exactly when `make` does not panic (height ≥ 0, and width ≥ 0 when a row is made); the grid is height × width of black pixels |
| AvgFrame.WriteRows | avgframe.go:62-64 | writing rows `from..` of a frame into column `col` succeeds iff each of those rows exists in the grid, has the column, and is non-empty; exactly those cells change, to the row averages |
| AvgFrame.WriteColumn | avgframe.go:62-64 | one iteration writes column `col` in every row j below the frame's row count and leaves all other cells unchanged; it fails (panics) iff some frame row has no grid row, the grid row lacks the column, or the frame row is empty |
| AvgFrame.CalculateColumns | avgframe.go:57-69 | a worker over `[start, end)` with stride `gap` succeeds iff the range is empty or the stride is positive and every visited frame fits; it fails iff its range is non-empty with a stride ≤ 0 or some index its loop reaches panics; the fault is a panic exactly in the latter case, otherwise the loop never ends; exactly the visited columns change; `framesCompleted` grows by one per visited index |
| AvgFrame.Workers | avgframe.go:46-52 | the run fails iff some worker fails; the fault is a panic iff some worker, whichever, panics, and otherwise the run never ends; with stride ≤ 0 and a non-empty range the run fails; `framesCompleted` is the total count of visited indices; columns outside every range are unchanged |
| AvgFrame.ColumnFitsRectangular | avgframe.go:62-64 | a column write into a height × width grid succeeds iff the frame has at most `height` rows, no empty row, and, when it has a row, the column is below `width` |
| AvgFrame.ZeroStridePanics | avgframe.go:58-63 | with stride 0 a worker with a non-empty range panics iff the column write of its first index panics |
| AvgFrame.NegativeStridePanics | avgframe.go:58-63 | with a negative stride the loop walks below 0 and panics at any negative index it reaches whose frame has a row |
| AvgFrame.CalculateColumnsKeepsOutside | avgframe.go:58-64 | a worker changes no column outside its own range |
| AvgFrame.Run | avgframe.go:32-50 | `numFrames > totalFrames` is rejected before any allocation or work; a completed run's grid is height × numFrames; columns given to no worker stay black |
| AvgFrame.Partition | avgframe.go:44-50 | the eight worker ranges: the first starts at 0, each has length `totalFrames / 8` (truncated), and each starts where the previous one ends |
| AvgFrame.PartitionContiguous | avgframe.go:44-50 | worker ranges `[i*frames, (i+1)*frames)` start at 0, each starts where the previous ends, and the last ends at `totalFrames - totalFrames % 8` |
| AvgFrame.PartitionDisjoint | avgframe.go:44-50 | no frame index lies in two workers' ranges |
| AvgFrame.PartitionAssigns | avgframe.go:44-50 | a frame index is given to some worker iff it lies in `[0, totalFrames - totalFrames % 8)`, so the last `totalFrames % 8` frames are never assigned |
| AvgFrame.PartitionTiles | avgframe.go:44-50 | the ranges tile `[0, totalFrames - totalFrames % 8)` left to right |
| AvgFrame.FrameGapAllOrNothing | avgframe.go:45 | for `totalFrames > 0` and any `numFrames <= totalFrames` that passes the guard, negative counts included: `frameGap` is 1 when `numFrames == totalFrames`, 0 for every other count above `-totalFrames`, and at most −1 from `-totalFrames` down |
| AvgFrame.RunFailsWhenSubsampling | avgframe.go:44-58 | with at least 8 frames and fewer requested than available, negative counts included, the run never completes |
| AvgFrame.SubsamplingOutcome | avgframe.go:44-63 | in that case the run panics iff the column write of some worker's first index `w * (totalFrames / 8)` panics, and otherwise never ends |
| AvgFrame.SubsamplingPanicsPastLastColumn | avgframe.go:44-63 | in that case the run panics when some worker's first index is at or past `numFrames` and its frame has a row |
| AvgFrame.SubsamplingHangsInside | avgframe.go:44-63 | in that case the run never ends when every worker's first index is below `numFrames` and its frame fits the grid |
| AvgFrame.ColumnsFill | avgframe.go:57-66 | a stride-1 worker over `[s, e)` turns the grid filled below s into the grid filled below e and counts e − s frames |
| AvgFrame.WorkersFill | avgframe.go:49-66 | stride-1 workers over ranges tiling `[s, e)` fill every column of `[s, e)` and count e − s frames |
| AvgFrame.WorkersNeedFit | avgframe.go:49-66 | if stride-1 workers over ranges tiling `[s, e)` complete, every frame in `[s, e)` fits the grid |
| AvgFrame.RunFullSampling | avgframe.go:44-66 | with `numFrames == totalFrames`, the run completes iff every assigned frame fits the grid; then each column below `totalFrames - totalFrames % 8` holds its own frame's row averages, the trailing `totalFrames % 8` columns stay black, and `framesCompleted` is `totalFrames - totalFrames % 8` |
| AvgFrame.SubsamplingPanics | avgframe.go:44-63 | 10 samples of a 100-frame video: worker 1 writes column 12 of a 10-column grid, so the run as written panics, while the intended schedule completes |
| AvgFrame.SubsamplingHangs | avgframe.go:44-63 | 99 samples of a 100-frame video: every worker starts inside the grid, so the run as written never ends, while the intended schedule completes |
| AvgFrame.RemainderLeftBlack | avgframe.go:44-50 | for a one-colour video sampled in full, each of the last `totalFrames % 8` columns is black and the count is `totalFrames % 8` short; the intended schedule paints that column and counts every frame |
| AvgFrame.CorrectedRun | avgframe.go:32-50 | the intended run rejects `numFrames > totalFrames` like the original and yields a height × numFrames grid |
| AvgFrame.SampleIndicesInRange | avgframe.go:45 | with the intended stride `totalFrames / numFrames`, the sample indices `c * stride` of columns `c < numFrames` are strictly increasing and below `totalFrames` |
| AvgFrame.CorrectedRunSamplesEveryColumn | avgframe.go:44-66 | the intended run over fitting frames completes, every column c holds the row averages of frame `c * stride`, and `framesCompleted` equals `numFrames` |
| Barcode.PackColours | src/main.rs:85-95 | requires the byte count to be a multiple of 3; `colours[k] = (data[3k], data[3k+1], data[3k+2])` and there are `len/3` colours |
| Barcode.PackUnpack | src/main.rs:87-95 | packing the byte plane of any colour sequence gives the sequence back |
| Barcode.UnpackPack | src/main.rs:87-95 | a byte plane whose length is a multiple of 3 is the plane of its packed colours |
| Barcode.SliceMean | src/main.rs:100-105 | the Rust mean (sum as unsigned, divide by the count, cast `as u8`) equals the Go reducer's average of the same colours, so the cast never truncates |
| Barcode.SliceMeanWithinBounds | src/main.rs:101-103 | each channel of the mean lies between bounds met by every colour of the slice |
| Barcode.SliceMeanUniform | src/main.rs:101-103 | a uniform slice returns its own colour |
| Barcode.GetAvgColours | src/main.rs:82-108 | requires a multiple-of-3 byte plane and, when there are rows, `height <= width <= len(colours)`; returns `height` colours, entry i being the average of the slice `colours[i..width]` |
| Barcode.RowAverages | src/main.rs:97-107 | the intended reducer: `height` colours, entry i being the average of row i, `colours[i*width..(i+1)*width]` |
| Barcode.RowAveragesUniformRow | src/main.rs:97-107 | the intended reducer gives a row of one colour that colour |
| Barcode.SliceIsNotRow | src/main.rs:99 | on a 2 × 2 frame the reducer as written reports the top row's right-hand pixel for the bottom row, whatever the bottom row holds |
| Barcode.GetFinalFrame | src/main.rs:110-127 | requires a non-empty input whose columns are each at least as long as the first; returns `3 * width * height` bytes; bytes `3(i*width + j) + 0, 1, 2` are the r, g, b of `column_colours[j][i]`; reading the raster back as columns gives the first `height` colours of each column |
| Barcode.AppendRow | src/main.rs:117-123 | one pass of the inner loop appends `3 * width` bytes, keeps the bytes already written, and places row i of every column j at offset `3(i*width + j)` |
| Barcode.PlacedColumns | src/main.rs:116-123 | a raster holding every colour at its row-major offset reads back as the columns |
| Barcode.DecimalValue | src/main.rs:131 | the decimal digits written for a number denote that number |
| Barcode.DecimalNoLeadingZero | src/main.rs:131 | a positive number's decimal form has no leading zero |
| Barcode.ParseDecimal | src/main.rs:131 | the decimal form of a number, followed by a non-digit, reads back as that number and the remaining bytes |
| Barcode.SaveFrame | src/main.rs:129-133 | the file is the header followed by exactly the raster bytes |
| Barcode.PpmRoundTrip | src/main.rs:129-133 | the bytes written, `"P6\n" + dec(width) + " " + dec(height) + "\n255\n" + frame`, read back as that width, that height, maximum value 255 and the raster unchanged |
| Barcode.WriteBarcode | src/main.rs:66-70 | the file for a non-empty set of columns declares the column count and the first column's length, each cast `as u32`, carries a raster of `3 * width * height` bytes, and that raster reads back as the columns |

## Left out

- `moviebarcode.go` is not part of this model. Its time-offset sampling is floating-point arithmetic.
- The external processes are not modelled. This covers `getFrame`, `getNumFrames`, `getVideoResolution`, the ffmpeg/ffprobe invocations, the parsing of their output, and the `log.Fatal` on their errors. Frames are an abstract function from index to grid; frame count and height are parameters.
- The `getFrame` index is passed to ffmpeg as `-ss`, a time offset. The model treats it as a frame index, as the surrounding code does.
- Goroutine scheduling and the `WaitGroup` are not modelled beyond the outcome rule above. The workers write distinct cells of the shared grid, which is no data race. The unsynchronised `framesCompleted++` is one: the model counts as if no increment were lost.
- `updateProgress` is modelled only as its integer counter. The float32 percentage and its `Printf` are output formatting.
- `GetPixels` and `CreateImage` are not modelled. They are thin wrappers over Go's image decoding, PNG encoding and file creation.
- The Rust decoding loop, scaler, `println!` calls and file creation are not modelled. `frame.data(0)` is taken as a plain byte plane without the per-line stride padding of real decoder output.
- AvgFrame.Run: Go's `int` is treated as unbounded, so 64-bit overflow in `i*frames` or in the channel sums is not modelled.
- Barcode.SliceMean: the Rust channel sum is `usize` and could only overflow with more than 2^56 pixels in one slice, which the model does not represent.
- ImageProcess.AddPixels: models the update of `p` as a returned grid. The source updates `p` in place, so aliasing between `p` and `p1` is not represented.
- The Go logging `fmt.Println(filename, i)` in the worker loop and `fmt.Println("OOF"…)` before `log.Fatal` in `getFrame` are output only and are not modelled.
- AvgFrame.Workers: a failing run yields only its fault, not the partly written grid or the counter value at the moment the process stops.

## Findings

| source | as written | input that shows it | evidently intended | confidence | as-written member | corrected member |
|---|---|---|---|---|---|---|
| avgframe.go:45 | `frameGap := numFrames / totalFrames` is 0 whenever fewer frames are requested than the video has, so the worker loop `i += frameGap` never advances, and column `i` is the frame index rather than a column below `numFrames`. On a video of at least 8 frames the program panics exactly when some worker's first column write panics, in particular when a worker starts at or past the last column and that frame has a row, and otherwise never ends. Below 8 frames every worker range is empty and the grid stays black | `totalFrames = 100`, `numFrames = 10`: worker 1 writes column 12 of 10 and panics; `numFrames = 99`: every worker spins on its first column | stride `totalFrames / numFrames`, column c sampled from frame `c * stride` | not executed | AvgFrame.SubsamplingOutcome | AvgFrame.CorrectedRunSamplesEveryColumn |
| avgframe.go:44 | `frames := totalFrames / numWorkers` drops the remainder, so the last `totalFrames % 8` frames are never assigned and their columns stay black | `totalFrames = numFrames = 10`: columns 8 and 9 stay black and 8 frames are counted | the last worker takes the remainder | not executed | AvgFrame.RemainderLeftBlack | AvgFrame.CorrectedRunSamplesEveryColumn |
| src/main.rs:99 | each row's mean is taken over `colours[i..width]`, which is part of the top row, not row i | 2 × 2 frame with bytes `[0,0,0, 255,255,255, 0,0,0, 0,0,0]`: the bottom row is reported white | the mean of `colours[i*width..(i+1)*width]` | not executed | Barcode.SliceIsNotRow | Barcode.RowAverages |

=== FILE: avgframe.dfy ===
/** The frame-index dispatcher of `avgframe.go`: the guard on the requested
    sample count, the allocation of the output grid, the split of the frame
    range over a fixed pool of workers, each worker's stride loop writing
    one averaged column per visited frame index, and the progress counter.

    The workers run concurrently in the program. Here the grid they leave
    is computed by running them one after the other, and the way the run
    ends does not depend on that order. Every way the program stops early
    is a `Fault`: `log.Fatal` at the guard, a Go runtime panic (a negative
    `make` length or an integer division by zero in `main`, or an index out
    of range or the average of an empty frame row in any worker), or, when
    no worker panics, a worker loop that never ends because its stride is
    not positive. */
module AvgFrame {
  import opened Wrappers
  import opened Ints
  import opened ImageProcess

  /** `numWorkers` */
  const NumWorkers: int := 8

  /** `getFrame(filename, index)` for the run's input file: the decoded frame
      at an index, as rows of pixels. It is an external process here. */
  type FrameSource = int -> Grid

  datatype Fault =
    | TooManyFrames     // the guard's log.Fatal
    | RuntimePanic      // a Go runtime panic
    | NeverTerminates   // a worker loop that never ends, with no worker panicking

  /** The shared state at the end of a run: `finalPixels` and `framesCompleted`. */
  datatype Progress = Progress(grid: Grid, framesCompleted: nat)

  /** The half-open range of frame indices `[start, end)` given to one worker. */
  datatype Range = Range(start: int, end: int)

  predicate InRange(r: Range, k: int) {
    r.start <= k < r.end
  }

  predicate SameShape(a: Grid, b: Grid) {
    |a| == |b| && forall j :: 0 <= j < |a| ==> |a[j]| == |b[j]|
  }

  predicate Rectangular(g: Grid, height: int, width: int) {
    |g| == height && forall j :: 0 <= j < |g| ==> |g[j]| == width
  }

  // ---------------------------------------------------------------------
  // Grid allocation

  /** `make([][]Pixel, height)` followed by `make([]Pixel, numFrames)` for
      each row: `height` rows of `width` black pixels. A negative length
      panics; the row length is only used when there is a row. */
  function NewGrid(height: int, width: int): (r: Result<Grid, Fault>)
    ensures r.Success? <==> height >= 0 && (height == 0 || width >= 0)
    ensures r.Success? ==> Rectangular(r.value, height, width)
    ensures r.Success? ==> forall j, k :: 0 <= j < height && 0 <= k < width ==> r.value[j][k] == Black
  {
    if height < 0 || (height > 0 && width < 0) then
      Failure(RuntimePanic)
    else
      var w: nat := if height == 0 then 0 else width;
      Success(seq(height, _ => seq(w, _ => Black)))
  }

  // ---------------------------------------------------------------------
  // One iteration of a worker: writing a column

  /** Row j of a frame can be written into column `col`: the grid has a row
      j, that row has a column `col`, and the frame's row is not empty
      (AveragePixels divides by its length). */
  predicate RowFits(grid: Grid, col: int, frame: Grid, j: int) {
    0 <= j < |frame| && j < |grid| && 0 <= col < |grid[j]| && |frame[j]| > 0
  }

  /** A frame has at most `height` rows and no empty row. */
  predicate FrameFits(frame: Grid, height: int) {
    |frame| <= height && forall j :: 0 <= j < |frame| ==> |frame[j]| > 0
  }

  /** Rows `from` onwards of the frame can be written into column `col`. */
  predicate RowsFit(grid: Grid, col: int, frame: Grid, from: nat) {
    forall j {:trigger RowFits(grid, col, frame, j)} {:trigger frame[j]} ::
      from <= j < |frame| ==> RowFits(grid, col, frame, j)
  }

  /** What one column write needs so that it does not panic: the frame has
      no more rows than the grid, the column exists in each of those rows,
      and no row of the frame is empty. */
  predicate ColumnFits(grid: Grid, col: int, frame: Grid) {
    RowsFit(grid, col, frame, 0)
  }

  lemma RowsFitShape(a: Grid, b: Grid, col: int, frame: Grid, from: nat)
    requires SameShape(a, b)
    requires RowsFit(a, col, frame, from)
    ensures RowsFit(b, col, frame, from)
  {
    forall j | from <= j < |frame|
      ensures RowFits(b, col, frame, j)
    {
      assert RowFits(a, col, frame, j);
      assert |a[j]| == |b[j]|;
    }
  }

  lemma ColumnFitsShape(a: Grid, b: Grid, col: int, frame: Grid)
    requires SameShape(a, b)
    ensures ColumnFits(a, col, frame) <==> ColumnFits(b, col, frame)
  {
    if ColumnFits(a, col, frame) {
      RowsFitShape(a, b, col, frame, 0);
    }
    if ColumnFits(b, col, frame) {
      RowsFitShape(b, a, col, frame, 0);
    }
  }

  /** The inner loop `for j := range pixels` from row `from` onwards. */
  function WriteRows(grid: Grid, col: int, frame: Grid, from: nat): (r: Result<Grid, Fault>)
    requires from <= |frame|
    ensures r.Success? <==> RowsFit(grid, col, frame, from)
    ensures r.Success? ==> SameShape(r.value, grid)
    ensures r.Success? ==> forall j, k :: 0 <= j < |grid| && 0 <= k < |grid[j]| ==>
      r.value[j][k] == if from <= j < |frame| && k == col then AveragePixels(frame[j]) else grid[j][k]
    decreases |frame| - from
  {
    if from == |frame| then
      Success(grid)
    else if !RowFits(grid, col, frame, from) then
      Failure(RuntimePanic)
    else
      var next := SetCell(grid, from, col, AveragePixels(frame[from]));
      RowsFitStep(grid, next, col, frame, from);
      WriteRows(next, col, frame, from + 1)
  }

  /** `grid[j][k] = v` */
  function SetCell(grid: Grid, j: int, k: int, v: Pixel): (g: Grid)
    requires 0 <= j < |grid| && 0 <= k < |grid[j]|
    ensures SameShape(g, grid)
    ensures forall j', k' :: 0 <= j' < |grid| && 0 <= k' < |grid[j']| ==>
      g[j'][k'] == if j' == j && k' == k then v else grid[j'][k']
  {
    grid[j := grid[j][k := v]]
  }

  lemma RowsFitStep(grid: Grid, next: Grid, col: int, frame: Grid, from: nat)
    requires SameShape(grid, next)
    requires RowFits(grid, col, frame, from)
    ensures RowsFit(next, col, frame, from + 1) <==> RowsFit(grid, col, frame, from)
  {
    if RowsFit(grid, col, frame, from) {
      RowsFitShape(grid, next, col, frame, from + 1);
    }
    if RowsFit(next, col, frame, from + 1) {
      RowsFitShape(next, grid, col, frame, from + 1);
    }
  }

  /** The body of the worker loop for frame index `col`: row j of the frame
      is averaged into `finalPixels[j][col]`, for every row of the frame.
      Every other cell keeps its value. */
  function WriteColumn(grid: Grid, col: int, frame: Grid): (r: Result<Grid, Fault>)
    ensures r.Success? <==> ColumnFits(grid, col, frame)
    ensures r.Success? ==> SameShape(r.value, grid)
    ensures r.Success? ==> forall j, k :: 0 <= j < |grid| && 0 <= k < |grid[j]| ==>
      r.value[j][k] == if j < |frame| && k == col then AveragePixels(frame[j]) else grid[j][k]
  {
    WriteRows(grid, col, frame, 0)
  }

  // ---------------------------------------------------------------------
  // A worker: `calculateColumns`

  /** Frame index k is visited by `for i := start; i < end; i += gap`. */
  predicate Visited(k: int, start: int, end: int, gap: int) {
    start <= k < end && gap > 0 && (k - start) % gap == 0
  }

  /** The number of indices the stride loop visits: the ceiling of
      `(end - start) / gap`. */
  function Visits(start: int, end: int, gap: int): nat {
    if start >= end || gap <= 0 then 0 else (end - start + gap - 1) / gap
  }

  lemma VisitedStep(k: int, start: int, end: int, gap: int)
    requires gap > 0 && start < end
    ensures Visited(k, start, end, gap) <==> k == start || Visited(k, start + gap, end, gap)
  {
    if start + gap <= k {
      assert (k - start) % gap == (k - (start + gap)) % gap by {
        ModShift(k - start - gap, gap);
      }
    } else if start < k {
      assert 0 < k - start < gap;
      assert (k - start) % gap == k - start;
    }
  }

  lemma ModShift(x: int, gap: int)
    requires gap > 0
    ensures (x + gap) / gap == x / gap + 1
    ensures (x + gap) % gap == x % gap
  {
    DivModUnique(x + gap, gap, x / gap + 1, x % gap);
  }

  lemma VisitsStep(start: int, end: int, gap: int)
    requires gap > 0 && start < end
    ensures Visits(start, end, gap) == 1 + Visits(start + gap, end, gap)
  {
    var x := end - start - 1;
    ModShift(x, gap);
    if start + gap < end {
      assert Visits(start + gap, end, gap) == (end - start - gap + gap - 1) / gap;
    } else {
      assert x < gap;
      assert x / gap == 0;
    }
  }

  /** The index the stride loop holds after `n` steps of `i += gap`. */
  function Nth(start: int, gap: int, n: nat): int {
    start + n * gap
  }

  /** Some index the worker's loop reaches has a frame whose column write
      panics. With a positive stride the loop reaches exactly the visited
      indices. With a stride of zero or less, `i < end` holds for ever, so
      the loop reaches every `start + n * gap`: it repeats `start` when the
      stride is 0 and walks below 0 when it is negative. */
  ghost predicate WorkerPanics(grid: Grid, start: int, end: int, gap: int, frameAt: FrameSource) {
    if gap > 0 then
      exists k :: Visited(k, start, end, gap) && !ColumnFits(grid, k, frameAt(k))
    else
      start < end && exists n: nat :: !ColumnFits(grid, Nth(start, gap, n), frameAt(Nth(start, gap, n)))
  }

  /** The worker does not complete: it panics, or its loop cannot advance. */
  ghost predicate WorkerFails(grid: Grid, range: Range, gap: int, frameAt: FrameSource) {
    (range.start < range.end && gap <= 0) || WorkerPanics(grid, range.start, range.end, gap, frameAt)
  }

  /** `calculateColumns(filename, start, end, frameGap)`, with the counter
      value `done` on entry. Each visited index writes its column and bumps
      `framesCompleted` (`updateProgress`). The loop advances only when the
      stride is positive; otherwise it runs until a column write panics, or
      for ever. */
  ghost function CalculateColumns(grid: Grid, start: int, end: int, gap: int, frameAt: FrameSource, done: nat)
    : (r: Result<Progress, Fault>)
    ensures r.Success? <==>
      (start >= end || gap > 0) &&
      forall k :: Visited(k, start, end, gap) ==> ColumnFits(grid, k, frameAt(k))
    ensures r.Failure? <==> WorkerFails(grid, Range(start, end), gap, frameAt)
    ensures r.Failure? ==> r.error == if WorkerPanics(grid, start, end, gap, frameAt) then RuntimePanic else NeverTerminates
    ensures r.Success? ==> SameShape(r.value.grid, grid)
    ensures r.Success? ==> r.value.framesCompleted == done + Visits(start, end, gap)
    ensures r.Success? ==> forall j, k :: 0 <= j < |grid| && 0 <= k < |grid[j]| ==>
      r.value.grid[j][k] ==
        if Visited(k, start, end, gap) && j < |frameAt(k)| then AveragePixels(frameAt(k)[j]) else grid[j][k]
    decreases end - start
  {
    if start >= end then
      Success(Progress(grid, done))
    else if gap <= 0 then
      Failure(if WorkerPanics(grid, start, end, gap, frameAt) then RuntimePanic else NeverTerminates)
    else
      var w := WriteColumn(grid, start, frameAt(start));
      if w.Failure? then
        assert Visited(start, start, end, gap);
        Failure(RuntimePanic)
      else
        VisitedStepAll(start, end, gap);
        VisitsStep(start, end, gap);
        ColumnFitsAll(grid, w.value, frameAt);
        CalculateColumns(w.value, start + gap, end, gap, frameAt, done + 1)
  }

  lemma VisitedStepAll(start: int, end: int, gap: int)
    requires gap > 0 && start < end
    ensures forall k :: Visited(k, start, end, gap) <==> k == start || Visited(k, start + gap, end, gap)
  {
    forall k
      ensures Visited(k, start, end, gap) <==> k == start || Visited(k, start + gap, end, gap)
    {
      VisitedStep(k, start, end, gap);
    }
  }

  lemma ColumnFitsAll(a: Grid, b: Grid, frameAt: FrameSource)
    requires SameShape(a, b)
    ensures forall k :: ColumnFits(a, k, frameAt(k)) <==> ColumnFits(b, k, frameAt(k))
  {
    forall k
      ensures ColumnFits(a, k, frameAt(k)) <==> ColumnFits(b, k, frameAt(k))
    {
      ColumnFitsShape(a, b, k, frameAt(k));
    }
  }

  // ---------------------------------------------------------------------
  // The worker pool

  /** Frame index k lies in none of the ranges. */
  predicate Outside(ranges: seq<Range>, k: int) {
    forall w :: 0 <= w < |ranges| ==> !InRange(ranges[w], k)
  }

  function TotalVisits(ranges: seq<Range>, gap: int): nat {
    if |ranges| == 0 then 0 else Visits(ranges[0].start, ranges[0].end, gap) + TotalVisits(ranges[1..], gap)
  }

  /** Some worker's loop reaches a column write that panics. */
  ghost predicate SomeWorkerPanics(grid: Grid, ranges: seq<Range>, gap: int, frameAt: FrameSource) {
    exists w :: 0 <= w < |ranges| && WorkerPanics(grid, ranges[w].start, ranges[w].end, gap, frameAt)
  }

  /** Some worker does not complete. */
  ghost predicate SomeWorkerFails(grid: Grid, ranges: seq<Range>, gap: int, frameAt: FrameSource) {
    exists w :: 0 <= w < |ranges| && WorkerFails(grid, ranges[w], gap, frameAt)
  }

  /** The workers over their ranges, all with the same stride. The program
      runs them as goroutines and waits for all of them, and a panic in any
      goroutine ends the whole process. So the run panics when some worker
      panics, whichever it is; failing that, it never ends when some worker
      never ends; and otherwise every worker completes. Whether a worker
      panics depends only on the grid's shape, which no worker changes, and
      the ranges of `main` are disjoint, so running the completing workers
      one after another gives the grid the goroutines leave behind. */
  ghost function Workers(grid: Grid, ranges: seq<Range>, gap: int, frameAt: FrameSource, done: nat)
    : (r: Result<Progress, Fault>)
    ensures r.Failure? <==> SomeWorkerFails(grid, ranges, gap, frameAt)
    ensures r.Failure? ==> r.error == if SomeWorkerPanics(grid, ranges, gap, frameAt) then RuntimePanic else NeverTerminates
    ensures gap <= 0 && (exists w :: 0 <= w < |ranges| && ranges[w].start < ranges[w].end) ==> r.Failure?
    ensures r.Success? ==> SameShape(r.value.grid, grid)
    ensures r.Success? ==> r.value.framesCompleted == done + TotalVisits(ranges, gap)
    ensures r.Success? ==> forall j, k :: 0 <= j < |grid| && 0 <= k < |grid[j]| && Outside(ranges, k) ==>
      r.value.grid[j][k] == grid[j][k]
    decreases |ranges|
  {
    if |ranges| == 0 then
      Success(Progress(grid, done))
    else
      var first := CalculateColumns(grid, ranges[0].start, ranges[0].end, gap, frameAt, done);
      OutsideTail(ranges);
      SomeWorkerTail(grid, ranges, gap, frameAt);
      if first.Failure? then
        var rest := Workers(grid, ranges[1..], gap, frameAt, done);
        Failure(if first.error == RuntimePanic || rest == Failure(RuntimePanic) then RuntimePanic else NeverTerminates)
      else
        var p := first.value;
        CalculateColumnsKeepsOutside(grid, ranges[0], gap, frameAt, done);
        WorkerFailsShape(grid, p.grid, ranges[1..], gap, frameAt);
        var r := Workers(p.grid, ranges[1..], gap, frameAt, p.framesCompleted);
        WorkersStepCells(grid, p.grid, ranges, gap, frameAt, r);
        r
  }

  /** Splitting off the first worker. */
  lemma SomeWorkerTail(grid: Grid, ranges: seq<Range>, gap: int, frameAt: FrameSource)
    requires |ranges| > 0
    ensures SomeWorkerFails(grid, ranges, gap, frameAt) <==>
      WorkerFails(grid, ranges[0], gap, frameAt) || SomeWorkerFails(grid, ranges[1..], gap, frameAt)
    ensures SomeWorkerPanics(grid, ranges, gap, frameAt) <==>
      WorkerPanics(grid, ranges[0].start, ranges[0].end, gap, frameAt) || SomeWorkerPanics(grid, ranges[1..], gap, frameAt)
  {
    if SomeWorkerFails(grid, ranges, gap, frameAt) {
      var w :| 0 <= w < |ranges| && WorkerFails(grid, ranges[w], gap, frameAt);
      if w > 0 {
        assert ranges[1..][w - 1] == ranges[w];
      }
    }
    if SomeWorkerFails(grid, ranges[1..], gap, frameAt) {
      var w :| 0 <= w < |ranges| - 1 && WorkerFails(grid, ranges[1..][w], gap, frameAt);
      assert ranges[1..][w] == ranges[w + 1];
    }
    if SomeWorkerPanics(grid, ranges, gap, frameAt) {
      var w :| 0 <= w < |ranges| && WorkerPanics(grid, ranges[w].start, ranges[w].end, gap, frameAt);
      if w > 0 {
        assert ranges[1..][w - 1] == ranges[w];
      }
    }
    if SomeWorkerPanics(grid, ranges[1..], gap, frameAt) {
      var w :| 0 <= w < |ranges| - 1 && WorkerPanics(grid, ranges[1..][w].start, ranges[1..][w].end, gap, frameAt);
      assert ranges[1..][w] == ranges[w + 1];
    }
  }

  /** Whether a worker panics depends only on the grid's shape. */
  lemma WorkerPanicsShape(a: Grid, b: Grid, start: int, end: int, gap: int, frameAt: FrameSource)
    requires SameShape(a, b)
    ensures WorkerPanics(a, start, end, gap, frameAt) <==> WorkerPanics(b, start, end, gap, frameAt)
  {
    ColumnFitsAll(a, b, frameAt);
  }

  lemma WorkerFailsShape(a: Grid, b: Grid, ranges: seq<Range>, gap: int, frameAt: FrameSource)
    requires SameShape(a, b)
    ensures SomeWorkerFails(a, ranges, gap, frameAt) <==> SomeWorkerFails(b, ranges, gap, frameAt)
    ensures SomeWorkerPanics(a, ranges, gap, frameAt) <==> SomeWorkerPanics(b, ranges, gap, frameAt)
  {
    forall w | 0 <= w < |ranges|
      ensures WorkerPanics(a, ranges[w].start, ranges[w].end, gap, frameAt)
          <==> WorkerPanics(b, ranges[w].start, ranges[w].end, gap, frameAt)
    {
      WorkerPanicsShape(a, b, ranges[w].start, ranges[w].end, gap, frameAt);
    }
  }

  /** A worker changes no column outside its own range. */
  lemma CalculateColumnsKeepsOutside(grid: Grid, range: Range, gap: int, frameAt: FrameSource, done: nat)
    ensures var r := CalculateColumns(grid, range.start, range.end, gap, frameAt, done);
      r.Success? ==> forall j, k :: 0 <= j < |grid| && 0 <= k < |grid[j]| && !InRange(range, k) ==>
        r.value.grid[j][k] == grid[j][k]
  {
    var r := CalculateColumns(grid, range.start, range.end, gap, frameAt, done);
    if r.Success? {
      forall j, k | 0 <= j < |grid| && 0 <= k < |grid[j]| && !InRange(range, k)
        ensures r.value.grid[j][k] == grid[j][k]
      {
        assert !Visited(k, range.start, range.end, gap);
      }
    }
  }

  lemma WorkersStepCells(grid: Grid, mid: Grid, ranges: seq<Range>, gap: int, frameAt: FrameSource, r: Result<Progress, Fault>)
    requires |ranges| > 0 && SameShape(mid, grid)
    requires forall j, k :: 0 <= j < |grid| && 0 <= k < |grid[j]| && !InRange(ranges[0], k) ==> mid[j][k] == grid[j][k]
    requires r.Success? ==> SameShape(r.value.grid, mid)
    requires r.Success? ==> forall j, k :: 0 <= j < |mid| && 0 <= k < |mid[j]| && Outside(ranges[1..], k) ==>
      r.value.grid[j][k] == mid[j][k]
    requires forall k :: Outside(ranges, k) ==> Outside(ranges[1..], k) && !InRange(ranges[0], k)
    ensures r.Success? ==> forall j, k :: 0 <= j < |grid| && 0 <= k < |grid[j]| && Outside(ranges, k) ==>
      r.value.grid[j][k] == grid[j][k]
  {
    if r.Success? {
      forall j, k | 0 <= j < |grid| && 0 <= k < |grid[j]| && Outside(ranges, k)
        ensures r.value.grid[j][k] == grid[j][k]
      {
        assert |mid[j]| == |grid[j]|;
      }
    }
  }

  lemma OutsideTail(ranges: seq<Range>)
    requires |ranges| > 0
    ensures forall k :: Outside(ranges, k) ==> Outside(ranges[1..], k) && !InRange(ranges[0], k)
  {
    forall k | Outside(ranges, k)
      ensures Outside(ranges[1..], k) && !InRange(ranges[0], k)
    {
      forall w | 0 <= w < |ranges| - 1
        ensures !InRange(ranges[1..][w], k)
      {
        assert ranges[1..][w] == ranges[w + 1];
      }
    }
  }

  /** The worker ranges of `main`: worker i gets `[i * frames, (i + 1) * frames)`
      with `frames = totalFrames / numWorkers`. */
  function Partition(totalFrames: int): (ranges: seq<Range>)
    ensures |ranges| == NumWorkers
    ensures ranges[0].start == 0
    ensures forall w :: 0 <= w < NumWorkers ==> ranges[w].end - ranges[w].start == TruncDiv(totalFrames, NumWorkers)
    ensures forall w :: 0 <= w < NumWorkers - 1 ==> ranges[w].end == ranges[w + 1].start
  {
    var frames := TruncDiv(totalFrames, NumWorkers);
    var ranges := seq(NumWorkers, w => Range(w * frames, (w + 1) * frames));
    forall w | 0 <= w < NumWorkers
      ensures ranges[w].end - ranges[w].start == frames
    {
      MulSucc(w, frames);
    }
    ranges
  }

  /** `main` after flag parsing: the guard, the grid allocation, the stride
      `frameGap = numFrames / totalFrames` and the eight workers. `height`
      is the video's row count and `frameAt` extracts a frame by index. */
  ghost function Run(totalFrames: int, numFrames: int, height: int, frameAt: FrameSource): (r: Result<Progress, Fault>)
    ensures numFrames > totalFrames ==> r == Failure(TooManyFrames)
    ensures r.Success? ==> Rectangular(r.value.grid, height, numFrames)
    ensures r.Success? ==> forall j, k :: 0 <= j < height && 0 <= k < numFrames && Outside(Partition(totalFrames), k) ==>
      r.value.grid[j][k] == Black
  {
    if numFrames > totalFrames then
      Failure(TooManyFrames)
    else
      var grid :- NewGrid(height, numFrames);
      if totalFrames == 0 then
        Failure(RuntimePanic)
      else
        Workers(grid, Partition(totalFrames), TruncDiv(numFrames, totalFrames), frameAt, 0)
  }

  // ---------------------------------------------------------------------
  // The partition of frame indices over the workers

  /** The worker ranges are contiguous: each starts where the previous one
      ends, the first at 0, and for a non-negative frame count the last ends
      at `totalFrames - totalFrames % numWorkers`. */
  lemma PartitionContiguous(totalFrames: int)
    ensures Partition(totalFrames)[0].start == 0
    ensures forall w :: 0 <= w < NumWorkers - 1 ==> Partition(totalFrames)[w].end == Partition(totalFrames)[w + 1].start
    ensures totalFrames >= 0 ==>
      Partition(totalFrames)[NumWorkers - 1].end == totalFrames - totalFrames % NumWorkers
  {
    if totalFrames >= 0 {
      TruncDivNonneg(totalFrames, NumWorkers);
    }
  }

  /** No frame index belongs to two workers. */
  lemma PartitionDisjoint(totalFrames: int, v: int, w: int, k: int)
    requires 0 <= v < w < NumWorkers
    ensures !(InRange(Partition(totalFrames)[v], k) && InRange(Partition(totalFrames)[w], k))
  {
    var f := TruncDiv(totalFrames, NumWorkers);
    if f > 0 {
      MulMono(v + 1, w, f);
    } else {
      MulMono(w, w + 1, -f);
      MulMono(v, v + 1, -f);
    }
  }

  /** Exactly the frame indices below `totalFrames - totalFrames % 8` are
      given to a worker: the last `totalFrames % 8` frames are never
      sampled. */
  lemma PartitionAssigns(totalFrames: int, k: int)
    requires totalFrames >= 0
    ensures !Outside(Partition(totalFrames), k) <==> 0 <= k < totalFrames - totalFrames % NumWorkers
  {
    TruncDivNonneg(totalFrames, NumWorkers);
    var f := TruncDiv(totalFrames, NumWorkers);
    MulComm(NumWorkers, f);
    assert NumWorkers * f == totalFrames - totalFrames % NumWorkers;
    if 0 <= k < NumWorkers * f {
      PartitionCovers(totalFrames, k);
    }
    if !Outside(Partition(totalFrames), k) {
      PartitionWithin(totalFrames, k);
    }
  }

  lemma PartitionCovers(totalFrames: int, k: int)
    requires 0 <= k < NumWorkers * TruncDiv(totalFrames, NumWorkers)
    ensures !Outside(Partition(totalFrames), k)
  {
    var f := TruncDiv(totalFrames, NumWorkers);
    BlockOf(k, f, NumWorkers);
    var w := k / f;
    assert InRange(Partition(totalFrames)[w], k);
  }

  /** Index k of n blocks of f lies in block `k / f`. */
  lemma BlockOf(k: int, f: int, n: int)
    requires n > 0 && 0 <= k < n * f
    ensures f > 0 && 0 <= k / f < n
    ensures (k / f) * f <= k < (k / f + 1) * f
  {
    if f <= 0 {
      MulMono(f, 0, n);
      MulComm(n, f);
      assert false;
    }
    var w := k / f;
    assert k == w * f + k % f && 0 <= k % f < f;
    MulSucc(w, f);
    MulComm(n, f);
    if w >= n {
      MulMono(n, w, f);
      assert false;
    }
    if w < 0 {
      MulMono(w + 1, 0, f);
      assert false;
    }
  }

  lemma PartitionWithin(totalFrames: int, k: int)
    requires !Outside(Partition(totalFrames), k)
    ensures 0 <= k < NumWorkers * TruncDiv(totalFrames, NumWorkers)
  {
    var ranges := Partition(totalFrames);
    var f := TruncDiv(totalFrames, NumWorkers);
    var w :| 0 <= w < |ranges| && InRange(ranges[w], k);
    assert w * f <= k < (w + 1) * f;
    if f < 0 {
      MulMono(w, w + 1, -f);
      assert false;
    }
    MulNonneg(w, f);
    MulMono(w + 1, NumWorkers, f);
    MulComm(NumWorkers, f);
  }

  // ---------------------------------------------------------------------
  // The stride

  /** Once the guard has passed, on a video with frames,
      `frameGap = numFrames / totalFrames` is 1 when every frame is
      requested, 0 for any other count above `-totalFrames` (a negative
      count truncates toward zero too), and negative from `-totalFrames`
      down. */
  lemma FrameGapAllOrNothing(totalFrames: int, numFrames: int)
    requires 0 < totalFrames && numFrames <= totalFrames
    ensures -totalFrames < numFrames ==>
      TruncDiv(numFrames, totalFrames) == if numFrames == totalFrames then 1 else 0
    ensures numFrames <= -totalFrames ==> TruncDiv(numFrames, totalFrames) <= -1
  {
    if numFrames >= 0 {
      TruncDivNonneg(numFrames, totalFrames);
      if numFrames < totalFrames {
        DivModUnique(numFrames, totalFrames, 0, numFrames);
      } else {
        DivModUnique(numFrames, totalFrames, 1, 0);
      }
    } else if -totalFrames < numFrames {
      DivModUnique(-numFrames, totalFrames, 0, -numFrames);
    } else {
      var q := (-numFrames) / totalFrames;
      DivModUnique(-numFrames, totalFrames, q, (-numFrames) % totalFrames);
      if q < 1 {
        MulMono(q, 0, totalFrames);
        assert false;
      }
    }
  }

  /** When fewer frames are requested than the video has (a negative count
      included), and the video has at least one frame per worker, the run
      never completes: the stride is 0 or negative, so no worker's loop
      advances. */
  lemma RunFailsWhenSubsampling(totalFrames: int, numFrames: int, height: int, frameAt: FrameSource)
    requires NumWorkers <= totalFrames && numFrames < totalFrames
    ensures Run(totalFrames, numFrames, height, frameAt).Failure?
  {
    if NewGrid(height, numFrames).Success? {
      FrameGapAllOrNothing(totalFrames, numFrames);
      assert TruncDiv(numFrames, totalFrames) <= 0;
      TruncDivNonneg(totalFrames, NumWorkers);
      var ranges := Partition(totalFrames);
      assert ranges[0].start < ranges[0].end;
      var grid := NewGrid(height, numFrames).value;
      assert Workers(grid, ranges, 0, frameAt, 0).Failure?;
    }
  }

  /** A column write into a `height` × `width` grid: it succeeds exactly
      when the frame fits the grid's height, has no empty row, and, unless
      the frame has no rows at all, the column is one of the grid's. */
  lemma ColumnFitsRectangular(grid: Grid, height: int, width: int, col: int, frame: Grid)
    requires Rectangular(grid, height, width)
    ensures ColumnFits(grid, col, frame) <==> FrameFits(frame, height) && (|frame| == 0 || 0 <= col < width)
  {
    if ColumnFits(grid, col, frame) {
      if |frame| > 0 {
        assert RowFits(grid, col, frame, 0);
        assert RowFits(grid, col, frame, |frame| - 1);
      }
      forall j | 0 <= j < |frame|
        ensures |frame[j]| > 0
      {
        assert RowFits(grid, col, frame, j);
      }
    }
  }

  /** With a stride of 0 the loop holds its first index for ever: the worker
      panics exactly when that index's column write does. */
  lemma ZeroStridePanics(grid: Grid, start: int, end: int, frameAt: FrameSource)
    requires start < end
    ensures WorkerPanics(grid, start, end, 0, frameAt) <==> !ColumnFits(grid, start, frameAt(start))
  {
    assert Nth(start, 0, 0) == start;
    forall n: nat
      ensures Nth(start, 0, n) == start
    {
    }
  }

  /** With a negative stride the loop walks below 0, and it panics at the
      first negative index whose frame has a row, since no grid row has a
      negative column. */
  lemma NegativeStridePanics(grid: Grid, start: int, end: int, gap: int, frameAt: FrameSource, done: nat, n: nat)
    requires gap < 0 && start < end
    requires Nth(start, gap, n) < 0 && |frameAt(Nth(start, gap, n))| > 0
    ensures CalculateColumns(grid, start, end, gap, frameAt, done) == Failure(RuntimePanic)
  {
    assert !RowFits(grid, Nth(start, gap, n), frameAt(Nth(start, gap, n)), 0);
  }

  /** When fewer frames are requested than the video has, and the video has
      at least one frame per worker, worker w holds index
      `w * (totalFrames / 8)` for ever. The run panics exactly when the
      column write of one of these eight first indices panics, and
      otherwise never ends. */
  lemma SubsamplingOutcome(totalFrames: int, numFrames: int, height: int, frameAt: FrameSource)
    requires NumWorkers <= totalFrames && 0 <= numFrames < totalFrames && height >= 0
    ensures var grid := NewGrid(height, numFrames).value;
      var f := totalFrames / NumWorkers;
      Run(totalFrames, numFrames, height, frameAt) ==
        Failure(if exists w :: 0 <= w < NumWorkers && !ColumnFits(grid, w * f, frameAt(w * f))
                then RuntimePanic else NeverTerminates)
  {
    FrameGapAllOrNothing(totalFrames, numFrames);
    TruncDivNonneg(totalFrames, NumWorkers);
    var grid := NewGrid(height, numFrames).value;
    var ranges := Partition(totalFrames);
    var f := totalFrames / NumWorkers;
    forall w | 0 <= w < NumWorkers
      ensures ranges[w].start == w * f < ranges[w].end
      ensures WorkerPanics(grid, ranges[w].start, ranges[w].end, 0, frameAt) <==> !ColumnFits(grid, w * f, frameAt(w * f))
    {
      MulSucc(w, f);
      ZeroStridePanics(grid, ranges[w].start, ranges[w].end, frameAt);
    }
    assert WorkerFails(grid, ranges[0], 0, frameAt);
    assert Run(totalFrames, numFrames, height, frameAt) == Workers(grid, ranges, 0, frameAt, 0);
  }

  /** Subsampling panics as soon as one worker's first index is at or past
      the last column and its frame has a row: `finalPixels[0][i]` is out of
      range. */
  lemma SubsamplingPanicsPastLastColumn(totalFrames: int, numFrames: int, height: int, frameAt: FrameSource, w: int)
    requires NumWorkers <= totalFrames && 0 <= numFrames < totalFrames && height >= 0
    requires 0 <= w < NumWorkers && numFrames <= w * (totalFrames / NumWorkers)
    requires |frameAt(w * (totalFrames / NumWorkers))| > 0
    ensures Run(totalFrames, numFrames, height, frameAt) == Failure(RuntimePanic)
  {
    var grid := NewGrid(height, numFrames).value;
    var f := totalFrames / NumWorkers;
    ColumnFitsRectangular(grid, height, numFrames, w * f, frameAt(w * f));
    SubsamplingOutcome(totalFrames, numFrames, height, frameAt);
  }

  /** Subsampling never ends when every worker's first index is a column of
      the grid and its frame fits: each worker rewrites that column for
      ever. */
  lemma SubsamplingHangsInside(totalFrames: int, numFrames: int, height: int, frameAt: FrameSource)
    requires NumWorkers <= totalFrames && 0 <= numFrames < totalFrames && height >= 0
    requires forall w :: 0 <= w < NumWorkers ==>
      w * (totalFrames / NumWorkers) < numFrames && FrameFits(frameAt(w * (totalFrames / NumWorkers)), height)
    ensures Run(totalFrames, numFrames, height, frameAt) == Failure(NeverTerminates)
  {
    var grid := NewGrid(height, numFrames).value;
    var f := totalFrames / NumWorkers;
    forall w | 0 <= w < NumWorkers
      ensures ColumnFits(grid, w * f, frameAt(w * f))
    {
      MulNonneg(w, f);
      ColumnFitsRectangular(grid, height, numFrames, w * f, frameAt(w * f));
    }
    SubsamplingOutcome(totalFrames, numFrames, height, frameAt);
  }

  // ---------------------------------------------------------------------
  // Full sampling: numFrames == totalFrames

  /** Every frame below `upto` fits a grid of `height` rows. */
  predicate FramesFit(frameAt: FrameSource, height: int, upto: int) {
    forall k :: 0 <= k < upto ==> FrameFits(frameAt(k), height)
  }

  /** `g` is a black `height` × `width` grid in which every column below
      `upto` holds the row averages of the frame with the same index. */
  predicate Filled(g: Grid, height: int, width: int, upto: int, frameAt: FrameSource)
    requires FramesFit(frameAt, height, upto)
  {
    && Rectangular(g, height, width)
    && forall j, k :: 0 <= j < height && 0 <= k < width ==>
         g[j][k] == if k < upto && j < |frameAt(k)| then AveragePixels(frameAt(k)[j]) else Black
  }

  lemma FilledColumnFits(g: Grid, height: int, width: int, s: int, frameAt: FrameSource, e: int, k: int)
    requires s <= e && FramesFit(frameAt, height, e)
    requires Filled(g, height, width, s, frameAt)
    requires 0 <= k < e && k < width
    ensures ColumnFits(g, k, frameAt(k))
  {
    forall j | 0 <= j < |frameAt(k)|
      ensures RowFits(g, k, frameAt(k), j)
    {
    }
  }

  lemma VisitedUnitStride(k: int, s: int, e: int)
    ensures Visited(k, s, e, 1) <==> s <= k < e
  {
  }

  /** One worker with stride 1 over `[s, e)` turns the grid filled below
      `s` into the grid filled below `e`, counting `e - s` frames. */
  lemma ColumnsFill(g: Grid, height: int, width: int, s: int, e: int, frameAt: FrameSource, done: nat)
    requires 0 <= s <= e <= width
    requires FramesFit(frameAt, height, e)
    requires Filled(g, height, width, s, frameAt)
    ensures var r := CalculateColumns(g, s, e, 1, frameAt, done);
      && r.Success?
      && r.value.framesCompleted == done + (e - s)
      && Filled(r.value.grid, height, width, e, frameAt)
  {
    ColumnsFillSucceeds(g, height, width, s, e, frameAt, done);
    var r := CalculateColumns(g, s, e, 1, frameAt, done);
    forall j, k | 0 <= j < height && 0 <= k < width
      ensures r.value.grid[j][k] == if k < e && j < |frameAt(k)| then AveragePixels(frameAt(k)[j]) else Black
    {
      VisitedUnitStride(k, s, e);
      assert 0 <= j < |g| && 0 <= k < |g[j]|;
      assert g[j][k] == if k < s && j < |frameAt(k)| then AveragePixels(frameAt(k)[j]) else Black;
    }
  }

  lemma ColumnsFillSucceeds(g: Grid, height: int, width: int, s: int, e: int, frameAt: FrameSource, done: nat)
    requires 0 <= s <= e <= width
    requires FramesFit(frameAt, height, e)
    requires Filled(g, height, width, s, frameAt)
    ensures CalculateColumns(g, s, e, 1, frameAt, done).Success?
  {
    forall k | Visited(k, s, e, 1)
      ensures ColumnFits(g, k, frameAt(k))
    {
      FilledColumnFits(g, height, width, s, frameAt, e, k);
    }
  }

  /** Ranges that tile `[s, e)` from left to right, in order. */
  predicate Contiguous(ranges: seq<Range>, s: int, e: int)
    decreases |ranges|
  {
    if |ranges| == 0 then s == e
    else ranges[0].start == s && s <= ranges[0].end && Contiguous(ranges[1..], ranges[0].end, e)
  }

  /** Ranges in which every range ends where the next starts tile the span
      from the first start to the last end. */
  lemma {:induction false} ContiguousChain(ranges: seq<Range>, i: int, e: int)
    requires 0 <= i <= |ranges|
    requires forall w :: 0 <= w < |ranges| ==> ranges[w].start <= ranges[w].end
    requires forall w :: 0 <= w < |ranges| - 1 ==> ranges[w].end == ranges[w + 1].start
    requires |ranges| > 0 ==> ranges[|ranges| - 1].end == e
    ensures Contiguous(ranges[i..], if i < |ranges| then ranges[i].start else e, e)
    decreases |ranges| - i
  {
    if i < |ranges| {
      ContiguousChain(ranges, i + 1, e);
      assert ranges[i..][1..] == ranges[i + 1..];
    }
  }

  lemma {:induction false} ContiguousBounds(ranges: seq<Range>, s: int, e: int)
    requires Contiguous(ranges, s, e)
    ensures s <= e
    decreases |ranges|
  {
    if |ranges| > 0 {
      ContiguousBounds(ranges[1..], ranges[0].end, e);
    }
  }

  /** The first worker's result feeds the remaining ones. */
  lemma WorkersUnfold(grid: Grid, ranges: seq<Range>, gap: int, frameAt: FrameSource, done: nat, p: Progress)
    requires |ranges| > 0
    requires CalculateColumns(grid, ranges[0].start, ranges[0].end, gap, frameAt, done) == Success(p)
    ensures Workers(grid, ranges, gap, frameAt, done) == Workers(p.grid, ranges[1..], gap, frameAt, p.framesCompleted)
  {
  }

  /** Workers with stride 1 over ranges tiling `[s, e)` turn the grid filled
      below `s` into the grid filled below `e`, counting `e - s` frames. */
  lemma {:induction false} WorkersFill(g: Grid, height: int, width: int, ranges: seq<Range>, s: int, e: int,
                                       frameAt: FrameSource, done: nat)
    requires Contiguous(ranges, s, e)
    requires 0 <= s <= e <= width
    requires FramesFit(frameAt, height, e)
    requires Filled(g, height, width, s, frameAt)
    ensures var r := Workers(g, ranges, 1, frameAt, done);
      && r.Success?
      && r.value.framesCompleted == done + (e - s)
      && Filled(r.value.grid, height, width, e, frameAt)
    decreases |ranges|
  {
    if |ranges| > 0 {
      var m := ranges[0].end;
      ContiguousBounds(ranges[1..], m, e);
      ColumnsFill(g, height, width, s, m, frameAt, done);
      var p := CalculateColumns(g, s, m, 1, frameAt, done).value;
      WorkersUnfold(g, ranges, 1, frameAt, done, p);
      WorkersFill(p.grid, height, width, ranges[1..], m, e, frameAt, p.framesCompleted);
    }
  }

  /** Frame k fits column k of a grid of `height` rows. */
  lemma ColumnFitsFrame(g: Grid, height: int, width: int, k: int, frameAt: FrameSource)
    requires Rectangular(g, height, width) && 0 <= k < width
    requires ColumnFits(g, k, frameAt(k))
    ensures |frameAt(k)| <= height && forall j :: 0 <= j < |frameAt(k)| ==> |frameAt(k)[j]| > 0
  {
    if |frameAt(k)| > 0 {
      assert RowFits(g, k, frameAt(k), |frameAt(k)| - 1);
    }
    forall j | 0 <= j < |frameAt(k)|
      ensures |frameAt(k)[j]| > 0
    {
      assert RowFits(g, k, frameAt(k), j);
    }
  }

  /** A stride-1 worker that completes has found every frame of its range
      fitting the grid. */
  lemma CalculateColumnsNeedsFit(g: Grid, height: int, width: int, s: int, m: int, frameAt: FrameSource, done: nat)
    requires 0 <= s <= m <= width
    requires FramesFit(frameAt, height, s)
    requires Rectangular(g, height, width)
    requires CalculateColumns(g, s, m, 1, frameAt, done).Success?
    ensures FramesFit(frameAt, height, m)
  {
    forall k | 0 <= k < m
      ensures |frameAt(k)| <= height && forall j :: 0 <= j < |frameAt(k)| ==> |frameAt(k)[j]| > 0
    {
      if s <= k {
        VisitedUnitStride(k, s, m);
        ColumnFitsFrame(g, height, width, k, frameAt);
      }
    }
  }

  /** Stride-1 workers that all complete have found every frame of their
      ranges fitting the grid. */
  lemma {:induction false} WorkersNeedFit(g: Grid, height: int, width: int, ranges: seq<Range>, s: int, e: int,
                                          frameAt: FrameSource, done: nat)
    requires Contiguous(ranges, s, e)
    requires 0 <= s && e <= width
    requires FramesFit(frameAt, height, s)
    requires Filled(g, height, width, s, frameAt)
    requires Workers(g, ranges, 1, frameAt, done).Success?
    ensures FramesFit(frameAt, height, e)
    decreases |ranges|
  {
    if |ranges| > 0 {
      var m := ranges[0].end;
      ContiguousBounds(ranges[1..], m, e);
      assert CalculateColumns(g, s, m, 1, frameAt, done).Success?;
      CalculateColumnsNeedsFit(g, height, width, s, m, frameAt, done);
      ColumnsFill(g, height, width, s, m, frameAt, done);
      var p := CalculateColumns(g, s, m, 1, frameAt, done).value;
      WorkersUnfold(g, ranges, 1, frameAt, done, p);
      WorkersNeedFit(p.grid, height, width, ranges[1..], m, e, frameAt, p.framesCompleted);
    }
  }

  lemma PartitionTiles(totalFrames: int)
    requires totalFrames >= 0
    ensures Contiguous(Partition(totalFrames), 0, totalFrames - totalFrames % NumWorkers)
  {
    var ranges := Partition(totalFrames);
    var f := TruncDiv(totalFrames, NumWorkers);
    TruncDivNonneg(totalFrames, NumWorkers);
    forall w | 0 <= w < |ranges|
      ensures ranges[w].start <= ranges[w].end
    {
      MulMono(w, w + 1, f);
    }
    ContiguousChain(ranges, 0, totalFrames - totalFrames % NumWorkers);
    assert ranges[0..] == ranges;
  }

  /** With every frame requested, the run is the workers with stride 1
      over the blank grid. */
  lemma RunFullIsWorkers(totalFrames: int, height: int, frameAt: FrameSource)
    requires totalFrames >= 1 && height >= 0
    ensures NewGrid(height, totalFrames).Success?
    ensures Filled(NewGrid(height, totalFrames).value, height, totalFrames, 0, frameAt)
    ensures Run(totalFrames, totalFrames, height, frameAt)
      == Workers(NewGrid(height, totalFrames).value, Partition(totalFrames), 1, frameAt, 0)
  {
    FrameGapAllOrNothing(totalFrames, totalFrames);
  }

  /** When every frame is requested, the run completes exactly when every
      frame given to a worker fits the grid. It then holds, in each column
      below `totalFrames - totalFrames % 8`, the row averages of the frame
      with that index, and black in the remaining `totalFrames % 8` columns,
      and `framesCompleted` ends `totalFrames % 8` short of `numFrames`. */
  lemma RunFullSampling(totalFrames: int, height: int, frameAt: FrameSource)
    requires totalFrames >= 1
    ensures Run(totalFrames, totalFrames, height, frameAt).Success? <==>
      height >= 0 && FramesFit(frameAt, height, totalFrames - totalFrames % NumWorkers)
    ensures Run(totalFrames, totalFrames, height, frameAt).Success? ==>
      var p := Run(totalFrames, totalFrames, height, frameAt).value;
      var sampled := totalFrames - totalFrames % NumWorkers;
      && p.framesCompleted == sampled
      && Rectangular(p.grid, height, totalFrames)
      && forall j, k {:trigger p.grid[j][k]} :: 0 <= j < height && 0 <= k < totalFrames ==>
           p.grid[j][k] == if k < sampled && j < |frameAt(k)| then AveragePixels(frameAt(k)[j]) else Black
  {
    var sampled := totalFrames - totalFrames % NumWorkers;
    if height >= 0 && FramesFit(frameAt, height, sampled) {
      FullSamplingFills(totalFrames, height, frameAt);
    }
    if Run(totalFrames, totalFrames, height, frameAt).Success? {
      FullSamplingNeedsFit(totalFrames, height, frameAt);
    }
  }

  lemma FullSamplingFills(totalFrames: int, height: int, frameAt: FrameSource)
    requires totalFrames >= 1 && height >= 0
    requires FramesFit(frameAt, height, totalFrames - totalFrames % NumWorkers)
    ensures var r := Run(totalFrames, totalFrames, height, frameAt);
      && r.Success?
      && r.value.framesCompleted == totalFrames - totalFrames % NumWorkers
      && Filled(r.value.grid, height, totalFrames, totalFrames - totalFrames % NumWorkers, frameAt)
  {
    RunFullIsWorkers(totalFrames, height, frameAt);
    FullSamplingWorkersFill(totalFrames, height, frameAt);
  }

  lemma FullSamplingWorkersFill(totalFrames: int, height: int, frameAt: FrameSource)
    requires totalFrames >= 1 && height >= 0
    requires FramesFit(frameAt, height, totalFrames - totalFrames % NumWorkers)
    ensures NewGrid(height, totalFrames).Success?
    ensures var r := Workers(NewGrid(height, totalFrames).value, Partition(totalFrames), 1, frameAt, 0);
      && r.Success?
      && r.value.framesCompleted == totalFrames - totalFrames % NumWorkers
      && Filled(r.value.grid, height, totalFrames, totalFrames - totalFrames % NumWorkers, frameAt)
  {
    var sampled := totalFrames - totalFrames % NumWorkers;
    PartitionTiles(totalFrames);
    var grid := NewGrid(height, totalFrames).value;
    assert Filled(grid, height, totalFrames, 0, frameAt);
    WorkersFill(grid, height, totalFrames, Partition(totalFrames), 0, sampled, frameAt, 0);
  }

  lemma FullSamplingNeedsFit(totalFrames: int, height: int, frameAt: FrameSource)
    requires totalFrames >= 1
    requires Run(totalFrames, totalFrames, height, frameAt).Success?
    ensures height >= 0 && FramesFit(frameAt, height, totalFrames - totalFrames % NumWorkers)
  {
    var sampled := totalFrames - totalFrames % NumWorkers;
    assert height >= 0;
    RunFullIsWorkers(totalFrames, height, frameAt);
    PartitionTiles(totalFrames);
    var grid := NewGrid(height, totalFrames).value;
    WorkersNeedFit(grid, height, totalFrames, Partition(totalFrames), 0, sampled, frameAt, 0);
  }

  // ---------------------------------------------------------------------
  // The schedule the dispatcher evidently intends

  /** `numFrames` columns split over the workers into contiguous ranges, the
      last worker absorbing the remainder of the division. */
  function SamplePartition(numFrames: nat): (ranges: seq<Range>)
    ensures |ranges| == NumWorkers
  {
    var per := numFrames / NumWorkers;
    seq(NumWorkers, w => Range(w * per, if w == NumWorkers - 1 then numFrames else (w + 1) * per))
  }

  /** The source for column c: frame `c * stride`. */
  function Sampled(frameAt: FrameSource, stride: int): FrameSource {
    c => frameAt(c * stride)
  }

  /** The run with the stride `totalFrames / numFrames`, column c written
      from frame `c * stride`, and the columns (not the frames) split over
      the workers with the remainder given to the last one. */
  ghost function CorrectedRun(totalFrames: int, numFrames: int, height: int, frameAt: FrameSource)
    : (r: Result<Progress, Fault>)
    ensures numFrames > totalFrames ==> r == Failure(TooManyFrames)
    ensures r.Success? ==> Rectangular(r.value.grid, height, numFrames)
  {
    if numFrames > totalFrames then
      Failure(TooManyFrames)
    else
      var grid :- NewGrid(height, numFrames);
      if numFrames <= 0 then
        Success(Progress(grid, 0))
      else
        Workers(grid, SamplePartition(numFrames), 1, Sampled(frameAt, totalFrames / numFrames), 0)
  }

  lemma SamplePartitionTiles(numFrames: nat)
    ensures Contiguous(SamplePartition(numFrames), 0, numFrames)
  {
    var ranges := SamplePartition(numFrames);
    var per := numFrames / NumWorkers;
    forall w | 0 <= w < |ranges|
      ensures ranges[w].start <= ranges[w].end
    {
      MulMono(w, w + 1, per);
      if w == NumWorkers - 1 {
        MulMono(w, NumWorkers, per);
      }
    }
    ContiguousChain(ranges, 0, numFrames);
    assert ranges[0..] == ranges;
  }

  /** Every column index `c < numFrames` is sampled from a frame index
      `c * stride` that exists, and later columns come from later frames. */
  lemma SampleIndicesInRange(totalFrames: int, numFrames: int, c: int, d: int)
    requires 1 <= numFrames <= totalFrames
    requires 0 <= c < d < numFrames
    ensures 0 <= c * (totalFrames / numFrames) < d * (totalFrames / numFrames) < totalFrames
  {
    var stride := totalFrames / numFrames;
    DivModUnique(totalFrames, numFrames, stride, totalFrames % numFrames);
    MulNonneg(c, stride);
    MulMono(c + 1, d, stride);
    MulMono(d + 1, numFrames, stride);
    assert numFrames * stride <= totalFrames;
  }

  /** With the intended schedule the run over frames that fit completes,
      column c holds the row averages of frame
      `c * (totalFrames / numFrames)`, and `framesCompleted` equals
      `numFrames`. */
  lemma CorrectedRunSamplesEveryColumn(totalFrames: int, numFrames: int, height: int, frameAt: FrameSource)
    requires 1 <= numFrames <= totalFrames && height >= 0
    requires FramesFit(Sampled(frameAt, totalFrames / numFrames), height, numFrames)
    ensures CorrectedRun(totalFrames, numFrames, height, frameAt).Success?
    ensures var p := CorrectedRun(totalFrames, numFrames, height, frameAt).value;
      && p.framesCompleted == numFrames
      && forall j, c :: 0 <= j < height && 0 <= c < numFrames ==>
           var frame := Sampled(frameAt, totalFrames / numFrames)(c);
           p.grid[j][c] == if j < |frame| then AveragePixels(frame[j]) else Black
  {
    var source := Sampled(frameAt, totalFrames / numFrames);
    SamplePartitionTiles(numFrames);
    var grid := NewGrid(height, numFrames).value;
    assert Filled(grid, height, numFrames, 0, source);
    WorkersFill(grid, height, numFrames, SamplePartition(numFrames), 0, numFrames, source, 0);
  }

  // ---------------------------------------------------------------------
  // Concrete runs

  /** A video whose every frame is the same picture. */
  function Still(frame: Grid): FrameSource {
    _ => frame
  }

  /** 10 samples of a 100-frame video: the stride is 0 and each worker
      has 12 frames, so worker 1 writes column 12 of a 10-column grid and the
      program panics, while the intended schedule completes. */
  lemma SubsamplingPanics()
    ensures Run(100, 10, 1, Still([[Black]])) == Failure(RuntimePanic)
    ensures CorrectedRun(100, 10, 1, Still([[Black]])).Success?
  {
    SubsamplingPanicsPastLastColumn(100, 10, 1, Still([[Black]]), 1);
    StillFits(Sampled(Still([[Black]]), 10), 1, 10, [[Black]]);
    CorrectedRunSamplesEveryColumn(100, 10, 1, Still([[Black]]));
  }

  /** 99 samples of a 100-frame video: every worker starts inside the
      99-column grid, so each one rewrites its first column for ever and the
      program never ends, while the intended schedule completes. */
  lemma SubsamplingHangs()
    ensures Run(100, 99, 1, Still([[Black]])) == Failure(NeverTerminates)
    ensures CorrectedRun(100, 99, 1, Still([[Black]])).Success?
  {
    SubsamplingHangsInside(100, 99, 1, Still([[Black]]));
    StillFits(Sampled(Still([[Black]]), 1), 1, 99, [[Black]]);
    CorrectedRunSamplesEveryColumn(100, 99, 1, Still([[Black]]));
  }

  lemma StillFits(frameAt: FrameSource, height: int, upto: int, frame: Grid)
    requires forall k :: frameAt(k) == frame
    requires FrameFits(frame, height)
    ensures FramesFit(frameAt, height, upto)
  {
  }

  /** Every frame of a one-row video of a single colour: the as-written run
      leaves each of the last `totalFrames % 8` columns black and counts
      `totalFrames % 8` frames too few; the intended schedule paints that
      column in the video's colour and counts every frame. With 10 white
      frames, columns 8 and 9 stay black. */
  lemma RemainderLeftBlack(totalFrames: int, colour: Pixel, k: int)
    requires totalFrames >= 1
    requires totalFrames - totalFrames % NumWorkers <= k < totalFrames
    ensures var r := Run(totalFrames, totalFrames, 1, Still([[colour]]));
      && r.Success?
      && r.value.framesCompleted == totalFrames - totalFrames % NumWorkers
      && r.value.grid[0][k] == Black
    ensures var r := CorrectedRun(totalFrames, totalFrames, 1, Still([[colour]]));
      && r.Success?
      && r.value.framesCompleted == totalFrames
      && r.value.grid[0][k] == colour
  {
    var video := Still([[colour]]);
    RunFullSampling(totalFrames, 1, video);
    AverageOfUniform([colour], colour);
    assert totalFrames / totalFrames == 1;
    assert FramesFit(Sampled(video, 1), 1, totalFrames) by {
      forall c | 0 <= c < totalFrames
        ensures Sampled(video, 1)(c) == [[colour]]
      {
      }
    }
    CorrectedRunSamplesEveryColumn(totalFrames, totalFrames, 1, video);
    assert Sampled(video, 1)(k) == [[colour]];
  }
}

=== FILE: barcode.dfy ===
/**
 * The Rust barcode builder. Each decoded RGB24 frame is reduced to a column
 * of colours, the columns are transposed into a row-major RGB raster, and
 * the raster is written out as a binary PPM (Netpbm "P6") image.
 *
 * Decoding, scaling and file creation are not modelled: a frame is the
 * plane of bytes handed to the reducer, and the output is the byte sequence
 * written to the file.
 */
module Barcode {
  import opened Wrappers
  import opened Ints
  import opened ImageProcess

  datatype Colour = Colour(r: u8, g: u8, b: u8)

  function Component(c: Colour, ch: Channel): u8 {
    match ch
    case R => c.r
    case G => c.g
    case B => c.b
  }

  /** The colour as a pixel of the Go reducer, one channel value per byte. */
  function Widen(c: Colour): (p: Pixel)
    ensures forall ch :: Get(p, ch) == Component(c, ch) as int
  {
    Pixel(c.r as int, c.g as int, c.b as int)
  }

  function WidenAll(cs: seq<Colour>): (ps: seq<Pixel>)
    ensures |ps| == |cs|
    ensures forall i :: 0 <= i < |cs| ==> ps[i] == Widen(cs[i])
  {
    seq(|cs|, i requires 0 <= i < |cs| => Widen(cs[i]))
  }

  lemma WidenInjective(c: Colour, d: Colour)
    requires Widen(c) == Widen(d)
    ensures c == d
  {
  }

  /** Rust's `as u8` on an unsigned value: keeps the low eight bits. */
  function Narrow(x: nat): (b: u8)
    ensures x < 0x100 ==> b as int == x
  {
    (x % 0x100) as u8
  }

  // ---------------------------------------------------------------------
  // Packing the byte plane into colours

  /** Consecutive byte triples read as (r, g, b). The byte count must be a
      multiple of 3; otherwise reading the green or blue byte of the last
      triple is out of bounds. */
  function PackColours(data: seq<u8>): (cs: seq<Colour>)
    requires |data| % 3 == 0
    ensures |cs| == |data| / 3
    ensures forall k :: 0 <= k < |cs| ==> cs[k] == Colour(data[3 * k], data[3 * k + 1], data[3 * k + 2])
    decreases |data|
  {
    if |data| == 0 then
      []
    else
      var rest := PackColours(data[3..]);
      PackShift(data, rest);
      [Colour(data[0], data[1], data[2])] + rest
  }

  lemma PackShift(data: seq<u8>, rest: seq<Colour>)
    requires |data| >= 3
    requires |rest| == (|data| - 3) / 3
    requires forall k :: 0 <= k < |rest| ==>
      rest[k] == Colour(data[3..][3 * k], data[3..][3 * k + 1], data[3..][3 * k + 2])
    ensures forall k :: 1 <= k <= |rest| ==>
      rest[k - 1] == Colour(data[3 * k], data[3 * k + 1], data[3 * k + 2])
  {
    forall k | 1 <= k <= |rest|
      ensures rest[k - 1] == Colour(data[3 * k], data[3 * k + 1], data[3 * k + 2])
    {
      var t := data[3..];
      var i := 3 * (k - 1);
      assert i + 3 == 3 * k;
      assert t[i] == data[i + 3] && t[i + 1] == data[i + 4] && t[i + 2] == data[i + 5];
    }
  }

  /** The byte plane of a sequence of colours, three bytes per colour. */
  function UnpackColours(cs: seq<Colour>): (data: seq<u8>)
    ensures |data| == 3 * |cs|
    decreases |cs|
  {
    if |cs| == 0 then [] else [cs[0].r, cs[0].g, cs[0].b] + UnpackColours(cs[1..])
  }

  lemma {:induction false} PackUnpack(cs: seq<Colour>)
    ensures PackColours(UnpackColours(cs)) == cs
    decreases |cs|
  {
    if |cs| > 0 {
      var data := UnpackColours(cs);
      PackUnpack(cs[1..]);
      assert data[3..] == UnpackColours(cs[1..]);
    }
  }

  lemma {:induction false} UnpackPack(data: seq<u8>)
    requires |data| % 3 == 0
    ensures UnpackColours(PackColours(data)) == data
    decreases |data|
  {
    if |data| > 0 {
      var cs := PackColours(data);
      UnpackPack(data[3..]);
      assert cs[1..] == PackColours(data[3..]);
      assert data == data[..3] + data[3..];
    }
  }

  // ---------------------------------------------------------------------
  // The slice mean

  /** One channel of the mean of a non-empty run of colours: the channel
      sum divided by the count, truncated, then cast to a byte. */
  function ChannelMean(cs: seq<Colour>, ch: Channel): (v: u8)
    requires |cs| > 0
    ensures v as int == Get(AveragePixels(WidenAll(cs)), ch)
  {
    var ps := WidenAll(cs);
    ChannelSumBounds(ps, ch, 0, 0xff);
    TruncDivNonneg(ChannelSum(ps, ch), |cs|);
    AverageWithinBounds(ps, ch, 0, 0xff);
    Narrow(ChannelSum(ps, ch) / |cs|)
  }

  /** The per-channel mean of a non-empty run of colours. */
  function SliceMean(cs: seq<Colour>): (m: Colour)
    requires |cs| > 0
    ensures Widen(m) == AveragePixels(WidenAll(cs))
  {
    var m := Colour(ChannelMean(cs, R), ChannelMean(cs, G), ChannelMean(cs, B));
    var avg := AveragePixels(WidenAll(cs));
    assert avg == Pixel(Get(avg, R), Get(avg, G), Get(avg, B));
    m
  }

  /** Each channel of the mean lies between bounds that hold for every
      colour of the run, so the byte cast never truncates. */
  lemma SliceMeanWithinBounds(cs: seq<Colour>, ch: Channel, lo: int, hi: int)
    requires |cs| > 0
    requires forall i :: 0 <= i < |cs| ==> lo <= Component(cs[i], ch) as int <= hi
    ensures lo <= Component(SliceMean(cs), ch) as int <= hi
  {
    AverageWithinBounds(WidenAll(cs), ch, lo, hi);
  }

  /** A run of one colour averages to that colour. */
  lemma SliceMeanUniform(cs: seq<Colour>, c: Colour)
    requires |cs| > 0
    requires forall i :: 0 <= i < |cs| ==> cs[i] == c
    ensures SliceMean(cs) == c
  {
    AverageOfUniform(WidenAll(cs), Widen(c));
    WidenInjective(SliceMean(cs), c);
  }

  // ---------------------------------------------------------------------
  // One colour per row of a frame

  /** The reducer as written: entry i is the mean of the colours from index
      i up to (not including) `width`, for each i below `height`. Every such
      slice must be in bounds and non-empty, so either there are no rows or
      `height <= width <= |colours|`. */
  function GetAvgColours(data: seq<u8>, width: nat, height: nat): (r: seq<Colour>)
    requires |data| % 3 == 0
    requires height == 0 || height <= width <= |data| / 3
    ensures |r| == height
    ensures forall i :: 0 <= i < height ==>
      Widen(r[i]) == AveragePixels(WidenAll(PackColours(data)[i..width]))
  {
    var colours := PackColours(data);
    seq(height, i requires 0 <= i < height => SliceMean(colours[i..width]))
  }

  /** Index one past the last colour of row i in a row-major raster of
      the given width. */
  function RowEnd(width: nat, i: nat): int {
    (i + 1) * width
  }

  /** Row i of a row-major raster of the given width. */
  function Row(colours: seq<Colour>, width: nat, i: nat): (row: seq<Colour>)
    requires RowEnd(width, i) <= |colours|
    ensures |row| == width
    ensures forall j :: 0 <= j < width ==> row[j] == colours[i * width + j]
  {
    colours[i * width..RowEnd(width, i)]
  }

  lemma RowsInBounds(width: nat, height: nat, n: int)
    requires height * width <= n
    ensures forall i: nat :: i < height ==> RowEnd(width, i) <= n
  {
    forall i: nat | i < height
      ensures RowEnd(width, i) <= n
    {
      MulMono(i + 1, height, width);
    }
  }

  /** The reducer evidently intended: entry i is the mean of row i. */
  function RowAverages(data: seq<u8>, width: nat, height: nat): (r: seq<Colour>)
    requires |data| % 3 == 0
    requires height == 0 || (0 < width && height * width <= |data| / 3)
    ensures |r| == height
    ensures forall i :: 0 <= i < height ==>
      RowEnd(width, i) <= |data| / 3 &&
      Widen(r[i]) == AveragePixels(WidenAll(Row(PackColours(data), width, i)))
  {
    var colours := PackColours(data);
    RowsInBounds(width, height, |colours|);
    seq(height, i requires 0 <= i < height => SliceMean(Row(colours, width, i)))
  }

  /** The intended reducer gives a row of one colour that colour. */
  lemma RowAveragesUniformRow(data: seq<u8>, width: nat, height: nat, i: nat, c: Colour)
    requires |data| % 3 == 0
    requires 0 < width && height * width <= |data| / 3
    requires i < height
    requires RowEnd(width, i) <= |data| / 3
    requires forall j :: 0 <= j < width ==> Row(PackColours(data), width, i)[j] == c
    ensures RowAverages(data, width, height)[i] == c
  {
    var row := Row(PackColours(data), width, i);
    SliceMeanUniform(row, c);
    AverageOfUniform(WidenAll(row), Widen(c));
    WidenInjective(RowAverages(data, width, height)[i], c);
  }

  /** On a 2 × 2 frame the reducer as written reports, for the bottom row,
      the colour of the top row's right-hand pixel (the slice from index 1
      to 2), whatever the bottom row holds; the intended reducer reports the
      bottom row's own colour. A top row of black then white over a black
      bottom row gives white against black. */
  lemma SliceIsNotRow(data: seq<u8>)
    requires |data| == 12
    ensures GetAvgColours(data, 2, 2)[1] == PackColours(data)[1]
    ensures PackColours(data)[2] == PackColours(data)[3] ==>
      RowAverages(data, 2, 2)[1] == PackColours(data)[2]
  {
    var colours := PackColours(data);
    var slice := colours[1..2];
    SliceMeanUniform(slice, colours[1]);
    WidenInjective(GetAvgColours(data, 2, 2)[1], colours[1]);
    if colours[2] == colours[3] {
      RowAveragesUniformRow(data, 2, 2, 1, colours[2]);
    }
  }

  // ---------------------------------------------------------------------
  // Transposing the columns into a raster

  /** Byte offset of the pixel in row i, column j of a row-major RGB raster
      of the given width. */
  function Offset(width: int, i: int, j: int): int {
    3 * (i * width + j)
  }

  /** The raster holds colour c at row i, column j. */
  predicate Placed(frame: seq<u8>, width: int, i: int, j: int, c: Colour) {
    && 0 <= Offset(width, i, j)
    && Offset(width, i, j) + 2 < |frame|
    && frame[Offset(width, i, j)] == c.r
    && frame[Offset(width, i, j) + 1] == c.g
    && frame[Offset(width, i, j) + 2] == c.b
  }

  lemma PlacedAppend(frame: seq<u8>, extra: seq<u8>, width: int, i: int, j: int, c: Colour)
    requires Placed(frame, width, i, j, c)
    ensures Placed(frame + extra, width, i, j, c)
  {
  }

  lemma OffsetBound(width: int, height: int, i: int, j: int)
    requires 0 <= i < height && 0 <= j < width
    ensures 0 <= Offset(width, i, j) && Offset(width, i, j) + 2 < 3 * width * height
  {
    MulNonneg(i, width);
    MulMono(i + 1, height, width);
  }

  /** The columns a row-major raster holds, each `height` colours long. */
  function ColumnsOf(frame: seq<u8>, width: nat, height: nat): (cols: seq<seq<Colour>>)
    requires |frame| == 3 * width * height
    ensures |cols| == width
    ensures forall j :: 0 <= j < width ==> |cols[j]| == height
  {
    seq(width, j requires 0 <= j < width =>
      seq(height, i requires 0 <= i < height =>
        OffsetBound(width, height, i, j);
        var o := Offset(width, i, j);
        Colour(frame[o], frame[o + 1], frame[o + 2])))
  }

  /** The raster built from column-major colours: for each row, the colour
      of that row in every column, left to right, three bytes each. The
      height is that of the first column, and every column must be at least
      that long. */
  method GetFinalFrame(columns: seq<seq<Colour>>) returns (frame: seq<u8>)
    requires |columns| > 0
    requires forall j :: 0 <= j < |columns| ==> |columns[j]| >= |columns[0]|
    ensures |frame| == 3 * |columns| * |columns[0]|
    ensures forall i, j :: 0 <= i < |columns[0]| && 0 <= j < |columns| ==>
      Placed(frame, |columns|, i, j, columns[j][i])
    ensures forall j :: 0 <= j < |columns| ==>
      ColumnsOf(frame, |columns|, |columns[0]|)[j] == columns[j][..|columns[0]|]
  {
    var width := |columns|;
    var height := |columns[0]|;
    frame := [];
    var i := 0;
    while i < height
      invariant 0 <= i <= height
      invariant |frame| == Offset(width, i, 0)
      invariant forall i', j' :: 0 <= i' < i && 0 <= j' < width ==> Placed(frame, width, i', j', columns[j'][i'])
    {
      var next := AppendRow(frame, columns, i);
      forall i', j' | 0 <= i' < i && 0 <= j' < width
        ensures Placed(next, width, i', j', columns[j'][i'])
      {
        PlacedPrefix(frame, next, width, i', j', columns[j'][i']);
      }
      frame := next;
      i := i + 1;
    }
    MulComm(height, width);
    PlacedColumns(frame, columns, width, height);
  }

  /** One pass of the inner loop: the colours of row i of every column,
      left to right, appended to the raster so far. */
  method AppendRow(frame: seq<u8>, columns: seq<seq<Colour>>, i: nat) returns (out: seq<u8>)
    requires forall j :: 0 <= j < |columns| ==> i < |columns[j]|
    requires |frame| == Offset(|columns|, i, 0)
    ensures |out| == Offset(|columns|, i + 1, 0)
    ensures out[..|frame|] == frame
    ensures forall j :: 0 <= j < |columns| ==> Placed(out, |columns|, i, j, columns[j][i])
  {
    var width := |columns|;
    out := frame;
    var j := 0;
    while j < width
      invariant 0 <= j <= width
      invariant |out| == Offset(width, i, j)
      invariant out[..|frame|] == frame
      invariant forall j' :: 0 <= j' < j ==> Placed(out, width, i, j', columns[j'][i])
    {
      var col := columns[j][i];
      var extra := [col.r, col.g, col.b];
      forall j' | 0 <= j' < j
        ensures Placed(out + extra, width, i, j', columns[j'][i])
      {
        PlacedAppend(out, extra, width, i, j', columns[j'][i]);
      }
      assert (out + extra)[..|frame|] == frame;
      out := out + extra;
      j := j + 1;
    }
    MulSucc(i, width);
  }

  lemma PlacedPrefix(frame: seq<u8>, out: seq<u8>, width: int, i: int, j: int, c: Colour)
    requires |frame| <= |out| && out[..|frame|] == frame
    requires Placed(frame, width, i, j, c)
    ensures Placed(out, width, i, j, c)
  {
    var o := Offset(width, i, j);
    assert out[o] == frame[o] && out[o + 1] == frame[o + 1] && out[o + 2] == frame[o + 2];
  }

  /** A raster that places every colour of the first `height` rows of the
      columns gives those columns back. */
  lemma PlacedColumns(frame: seq<u8>, columns: seq<seq<Colour>>, width: nat, height: nat)
    requires width == |columns|
    requires forall j :: 0 <= j < width ==> |columns[j]| >= height
    requires |frame| == 3 * width * height
    requires forall i, j :: 0 <= i < height && 0 <= j < width ==> Placed(frame, width, i, j, columns[j][i])
    ensures forall j :: 0 <= j < width ==> ColumnsOf(frame, width, height)[j] == columns[j][..height]
  {
    var cols := ColumnsOf(frame, width, height);
    forall j | 0 <= j < width
      ensures cols[j] == columns[j][..height]
    {
      forall i | 0 <= i < height
        ensures cols[j][i] == columns[j][i]
      {
        assert Placed(frame, width, i, j, columns[j][i]);
      }
    }
  }

  // ---------------------------------------------------------------------
  // The PPM file

  /** The bytes of an ASCII string. */
  function Ascii(s: string): (b: seq<u8>)
    requires forall i :: 0 <= i < |s| ==> s[i] as int < 0x80
    ensures |b| == |s|
  {
    seq(|s|, i requires 0 <= i < |s| => s[i] as int as u8)
  }

  /** ASCII '0' to '9'. */
  predicate IsDigit(b: u8) {
    0x30 <= b <= 0x39
  }

  function DigitByte(d: int): (b: u8)
    requires 0 <= d < 10
    ensures IsDigit(b)
  {
    (0x30 + d) as u8
  }

  /** The decimal digits of n, most significant first, with no leading
      zero. */
  function Decimal(n: nat): (s: seq<u8>)
    ensures |s| > 0
    ensures forall i :: 0 <= i < |s| ==> IsDigit(s[i])
    decreases n
  {
    if n < 10 then [DigitByte(n)] else Decimal(n / 10) + [DigitByte(n % 10)]
  }

  /** The number a run of decimal digits denotes. */
  function DigitsValue(s: seq<u8>): nat
    requires forall i :: 0 <= i < |s| ==> IsDigit(s[i])
  {
    if |s| == 0 then 0
    else
      var d := s[|s| - 1];
      assert IsDigit(d);
      DigitsValue(s[..|s| - 1]) * 10 + (d as int - 0x30)
  }

  lemma {:induction false} DecimalValue(n: nat)
    ensures DigitsValue(Decimal(n)) == n
    decreases n
  {
    if n >= 10 {
      DecimalValue(n / 10);
      var s := Decimal(n);
      assert s[..|s| - 1] == Decimal(n / 10);
    }
  }

  /** No leading zero: a positive number's first digit is not '0'. */
  lemma {:induction false} DecimalNoLeadingZero(n: nat)
    requires n > 0
    ensures Decimal(n)[0] != 0x30
    decreases n
  {
    if n >= 10 {
      DecimalNoLeadingZero(n / 10);
    }
  }

  /** The length of the run of digits at the start of s. */
  function DigitRun(s: seq<u8>): (k: nat)
    ensures k <= |s|
    ensures forall i :: 0 <= i < k ==> IsDigit(s[i])
    ensures k < |s| ==> !IsDigit(s[k])
    decreases |s|
  {
    if |s| == 0 || !IsDigit(s[0]) then 0 else 1 + DigitRun(s[1..])
  }

  lemma {:induction false} DigitRunOfDigits(d: seq<u8>, rest: seq<u8>)
    requires forall i :: 0 <= i < |d| ==> IsDigit(d[i])
    requires |rest| == 0 || !IsDigit(rest[0])
    ensures DigitRun(d + rest) == |d|
    decreases |d|
  {
    if |d| > 0 {
      DigitRunOfDigits(d[1..], rest);
      assert (d + rest)[1..] == d[1..] + rest;
    }
  }

  /** A number at the start of s and the bytes after it. */
  function ParseNat(s: seq<u8>): Option<(nat, seq<u8>)> {
    var k := DigitRun(s);
    if k == 0 then None else Some((DigitsValue(s[..k]), s[k..]))
  }

  lemma ParseDecimal(n: nat, rest: seq<u8>)
    requires |rest| == 0 || !IsDigit(rest[0])
    ensures ParseNat(Decimal(n) + rest) == Some((n, rest))
  {
    var s := Decimal(n) + rest;
    DigitRunOfDigits(Decimal(n), rest);
    assert s[..|Decimal(n)|] == Decimal(n);
    assert s[|Decimal(n)|..] == rest;
    DecimalValue(n);
  }

  const Space: u8 := ' ' as u8
  const Newline: u8 := '\n' as u8

  /** The header written before the raster: magic number, width and height
      in decimal separated by a space, and the maximum channel value 255,
      each line ended by a newline. */
  function PpmHeader(width: u32, height: u32): seq<u8> {
    Ascii("P6\n") + Decimal(width as nat) + [Space] + Decimal(height as nat) + [Newline] + Ascii("255\n")
  }

  /** The bytes of the output file: the header, then the raster unchanged. */
  function SaveFrame(frame: seq<u8>, width: u32, height: u32): (out: seq<u8>)
    ensures |out| == |PpmHeader(width, height)| + |frame|
    ensures out[|PpmHeader(width, height)|..] == frame
  {
    PpmHeader(width, height) + frame
  }

  datatype Ppm = Ppm(width: nat, height: nat, maxValue: nat, raster: seq<u8>)

  /** A number at the start of s that is followed by the byte `sep`, and
      the bytes after the separator. */
  function ParseField(s: seq<u8>, sep: u8): Option<(nat, seq<u8>)> {
    match ParseNat(s)
    case None => None
    case Some((n, rest)) =>
      if |rest| == 0 || rest[0] != sep then None else Some((n, rest[1..]))
  }

  lemma ParseFieldDecimal(n: nat, sep: u8, rest: seq<u8>)
    requires !IsDigit(sep)
    ensures ParseField(Decimal(n) + ([sep] + rest), sep) == Some((n, rest))
  {
    ParseDecimal(n, [sep] + rest);
  }

  /** A reader for the header layout written above. */
  function ParsePpm(bytes: seq<u8>): Option<Ppm> {
    if |bytes| < 3 || bytes[..3] != Ascii("P6\n") then None
    else
      match ParseField(bytes[3..], Space)
      case None => None
      case Some((w, r1)) =>
        match ParseField(r1, Newline)
        case None => None
        case Some((h, r2)) =>
          match ParseField(r2, Newline)
          case None => None
          case Some((m, raster)) => Some(Ppm(w, h, m, raster))
  }

  lemma HeaderLayout(frame: seq<u8>, width: u32, height: u32)
    ensures SaveFrame(frame, width, height) ==
      Ascii("P6\n") + (Decimal(width as nat) + ([Space] + (Decimal(height as nat) + ([Newline] +
        (Decimal(255) + ([Newline] + frame))))))
  {
    assert Ascii("255\n") == Decimal(255) + [Newline];
  }

  /** The written file reads back as the width, the height, the maximum
      value 255 and the raster, byte for byte. */
  lemma PpmRoundTrip(frame: seq<u8>, width: u32, height: u32)
    ensures ParsePpm(SaveFrame(frame, width, height)) == Some(Ppm(width as nat, height as nat, 255, frame))
  {
    var r2 := Decimal(255) + ([Newline] + frame);
    var r1 := Decimal(height as nat) + ([Newline] + r2);
    var body := Decimal(width as nat) + ([Space] + r1);
    var bytes := SaveFrame(frame, width, height);
    HeaderLayout(frame, width, height);
    assert bytes[..3] == Ascii("P6\n") && bytes[3..] == body;
    ParseFieldDecimal(width as nat, Space, r1);
    ParseFieldDecimal(height as nat, Newline, r2);
    ParseFieldDecimal(255, Newline, frame);
  }

  // ---------------------------------------------------------------------
  // The whole output

  /** The image file for a non-empty sequence of columns: the raster of the
      columns, behind a header whose width is the number of columns and
      whose height is the length of the first column, each cast to 32 bits
      as Rust's `as u32` does. */
  method WriteBarcode(columns: seq<seq<Colour>>) returns (out: seq<u8>)
    requires |columns| > 0
    requires forall j :: 0 <= j < |columns| ==> |columns[j]| >= |columns[0]|
    ensures ParsePpm(out).Some?
    ensures ParsePpm(out).value.width == |columns| % 0x1_0000_0000
    ensures ParsePpm(out).value.height == |columns[0]| % 0x1_0000_0000
    ensures ParsePpm(out).value.maxValue == 255
    ensures |ParsePpm(out).value.raster| == 3 * |columns| * |columns[0]|
    ensures forall j :: 0 <= j < |columns| ==>
      ColumnsOf(ParsePpm(out).value.raster, |columns|, |columns[0]|)[j] == columns[j][..|columns[0]|]
  {
    var frame := GetFinalFrame(columns);
    var width := (|columns| % 0x1_0000_0000) as u32;
    var height := (|columns[0]| % 0x1_0000_0000) as u32;
    out := SaveFrame(frame, width, height);
    PpmRoundTrip(frame, width, height);
  }
}

=== FILE: imageprocess.dfy ===
/** The `imageprocess` package of the Go implementation: the RGB pixel
    record, the row reducer that collapses a row of a frame to its average
    colour, the narrowing of 16-bit colour channels to 8 bits, and
    component-wise accumulation of pixels and pixel grids. */
module ImageProcess {
  import opened Ints

  /** A colour with Go `int` channels. */
  datatype Pixel = Pixel(r: int, g: int, b: int)

  /** Selects one channel of a pixel, so that per-channel facts are stated once. */
  datatype Channel = R | G | B

  type Grid = seq<seq<Pixel>>

  /** The zero value of `Pixel`: black. */
  const Black := Pixel(0, 0, 0)

  function Get(p: Pixel, c: Channel): int {
    match c
    case R => p.r
    case G => p.g
    case B => p.b
  }

  /** `(*Pixel).add`: the receiver is replaced by the component-wise sum. */
  function Add(p: Pixel, p1: Pixel): (sum: Pixel)
    ensures forall c :: Get(sum, c) == ChannelSum([p, p1], c)
  {
    ChannelSumPair(p, p1);
    Pixel(p.r + p1.r, p.g + p1.g, p.b + p1.b)
  }

  /** Addition acts on each channel separately, is commutative and
      associative, and has black as identity: the facts that let the
      reducer's accumulation ignore the order of the row. */
  lemma AddLaws(p: Pixel, q: Pixel, s: Pixel)
    ensures forall c :: Get(Add(p, q), c) == Get(p, c) + Get(q, c)
    ensures Add(p, q) == Add(q, p)
    ensures Add(Add(p, q), s) == Add(p, Add(q, s))
    ensures Add(Black, p) == p
  {
  }

  /** The running total of the reducer's loop: black, then `add` of each
      pixel of the row from left to right. */
  function Accumulate(row: seq<Pixel>): Pixel {
    if |row| == 0 then Black else Add(Accumulate(row[..|row| - 1]), row[|row| - 1])
  }

  lemma ChannelSumPair(p: Pixel, p1: Pixel)
    ensures forall c :: ChannelSum([p, p1], c) == Get(p, c) + Get(p1, c)
  {
    forall c
      ensures ChannelSum([p, p1], c) == Get(p, c) + Get(p1, c)
    {
      assert [p, p1][1..] == [p1] && [p1][1..] == [];
      assert ChannelSum([p1], c) == Get(p1, c) + ChannelSum([], c);
    }
  }

  /** Reference definition: the sum of one channel over a row. */
  function ChannelSum(row: seq<Pixel>, c: Channel): int {
    if |row| == 0 then 0 else Get(row[0], c) + ChannelSum(row[1..], c)
  }

  /** `AveragePixels`: accumulate the row, then divide every channel by the
      row length with Go's truncating division. An empty row is a division
      by zero, which panics, so callers must supply a non-empty row. */
  function AveragePixels(row: seq<Pixel>): (avg: Pixel)
    requires |row| > 0
    ensures forall c :: Get(avg, c) == TruncDiv(ChannelSum(row, c), |row|)
  {
    var total := Accumulate(row);
    AccumulateIsChannelSum(row);
    Pixel(TruncDiv(total.r, |row|), TruncDiv(total.g, |row|), TruncDiv(total.b, |row|))
  }

  lemma {:induction false} ChannelSumAppend(s: seq<Pixel>, p: Pixel, c: Channel)
    ensures ChannelSum(s + [p], c) == ChannelSum(s, c) + Get(p, c)
    decreases |s|
  {
    if |s| == 0 {
      assert s + [p] == [p];
    } else {
      assert (s + [p])[1..] == s[1..] + [p];
      ChannelSumAppend(s[1..], p, c);
    }
  }

  lemma {:induction false} ChannelSumConcat(s: seq<Pixel>, t: seq<Pixel>, c: Channel)
    ensures ChannelSum(s + t, c) == ChannelSum(s, c) + ChannelSum(t, c)
    decreases |s|
  {
    if |s| == 0 {
      assert s + t == t;
    } else {
      assert (s + t)[1..] == s[1..] + t;
      ChannelSumConcat(s[1..], t, c);
    }
  }

  /** The loop's left-to-right accumulation computes, on every channel,
      the sum of that channel over the row. */
  lemma {:induction false} AccumulateIsChannelSum(row: seq<Pixel>)
    ensures forall c :: Get(Accumulate(row), c) == ChannelSum(row, c)
    decreases |row|
  {
    if |row| > 0 {
      var init := row[..|row| - 1];
      var last := row[|row| - 1];
      AccumulateIsChannelSum(init);
      assert init + [last] == row;
      forall c
        ensures Get(Accumulate(row), c) == ChannelSum(row, c)
      {
        ChannelSumAppend(init, last, c);
      }
    }
  }

  /** A worked example: black and (10, 20, 30) average to (5, 10, 15). */
  lemma AverageExample()
    ensures AveragePixels([Pixel(0, 0, 0), Pixel(10, 20, 30)]) == Pixel(5, 10, 15)
  {
    var row := [Pixel(0, 0, 0), Pixel(10, 20, 30)];
    assert row[1..][1..] == [];
    assert ChannelSum(row, R) == 10 && ChannelSum(row, G) == 20 && ChannelSum(row, B) == 30;
    var avg := AveragePixels(row);
    assert Get(avg, R) == 5 && Get(avg, G) == 10 && Get(avg, B) == 15;
  }

  lemma {:induction false} ChannelSumUniform(row: seq<Pixel>, p: Pixel, c: Channel)
    requires forall i :: 0 <= i < |row| ==> row[i] == p
    ensures ChannelSum(row, c) == |row| * Get(p, c)
    decreases |row|
  {
    if |row| > 0 {
      ChannelSumUniform(row[1..], p, c);
      assert |row| * Get(p, c) == Get(p, c) + (|row| - 1) * Get(p, c);
    }
  }

  /** A row of k >= 1 copies of one colour averages to exactly that colour:
      truncation introduces no drift when all inputs are equal. */
  lemma AverageOfUniform(row: seq<Pixel>, p: Pixel)
    requires |row| > 0
    requires forall i :: 0 <= i < |row| ==> row[i] == p
    ensures AveragePixels(row) == p
  {
    var avg := AveragePixels(row);
    forall c
      ensures Get(avg, c) == Get(p, c)
    {
      ChannelSumUniform(row, p, c);
      TruncDivExact(Get(p, c), |row|);
    }
    assert Get(avg, R) == p.r && Get(avg, G) == p.g && Get(avg, B) == p.b;
  }

  lemma {:induction false} ChannelSumBounds(row: seq<Pixel>, c: Channel, lo: int, hi: int)
    requires forall i :: 0 <= i < |row| ==> lo <= Get(row[i], c) <= hi
    ensures |row| * lo <= ChannelSum(row, c) <= |row| * hi
    decreases |row|
  {
    if |row| > 0 {
      ChannelSumBounds(row[1..], c, lo, hi);
      assert |row| * lo == lo + (|row| - 1) * lo;
      assert |row| * hi == hi + (|row| - 1) * hi;
    }
  }

  /** Each channel of the average lies between the smallest and the largest
      value of that channel in the row. This holds for any bounds `lo` and
      `hi` of the channel, negative ones included, because truncation never
      leaves an interval with whole-number end points. */
  lemma AverageWithinBounds(row: seq<Pixel>, c: Channel, lo: int, hi: int)
    requires |row| > 0
    requires forall i :: 0 <= i < |row| ==> lo <= Get(row[i], c) <= hi
    ensures lo <= Get(AveragePixels(row), c) <= hi
  {
    ChannelSumBounds(row, c, lo, hi);
    TruncDivBetween(ChannelSum(row, c), |row|, lo, hi);
  }

  /** Removing the element at position k from a row removes its channel
      value from the sum. */
  lemma ChannelSumRemove(s: seq<Pixel>, k: int, c: Channel)
    requires 0 <= k < |s|
    ensures ChannelSum(s, c) == Get(s[k], c) + ChannelSum(s[..k] + s[k + 1..], c)
  {
    assert s == s[..k] + ([s[k]] + s[k + 1..]);
    ChannelSumConcat(s[..k], [s[k]] + s[k + 1..], c);
    ChannelSumConcat(s[..k], s[k + 1..], c);
    assert ([s[k]] + s[k + 1..])[1..] == s[k + 1..];
  }

  lemma MultisetRemove(s: seq<Pixel>, k: int)
    requires 0 <= k < |s|
    ensures multiset(s) == multiset(s[..k] + s[k + 1..]) + multiset{s[k]}
  {
    assert s == s[..k] + [s[k]] + s[k + 1..];
  }

  /** Dropping the head of one arrangement and its occurrence at position k
      of another leaves two arrangements of the same multiset. */
  lemma PermutationTail(a: seq<Pixel>, b: seq<Pixel>, k: int)
    requires multiset(a) == multiset(b)
    requires 0 < |a| && 0 <= k < |b| && b[k] == a[0]
    ensures multiset(a[1..]) == multiset(b[..k] + b[k + 1..])
  {
    MultisetRemove(b, k);
    MultisetRemove(a, 0);
    assert a[..0] + a[1..] == a[1..];
    assert multiset(a[1..]) == multiset(a) - multiset{a[0]};
    assert multiset(b[..k] + b[k + 1..]) == multiset(b) - multiset{b[k]};
  }

  lemma {:induction false} ChannelSumPermutation(a: seq<Pixel>, b: seq<Pixel>, c: Channel)
    requires multiset(a) == multiset(b)
    ensures ChannelSum(a, c) == ChannelSum(b, c)
    decreases |a|
  {
    if |a| == 0 {
      assert |b| == |multiset(b)| == 0;
    } else {
      assert a[0] in multiset(b);
      var k :| 0 <= k < |b| && b[k] == a[0];
      var b' := b[..k] + b[k + 1..];
      PermutationTail(a, b, k);
      ChannelSumPermutation(a[1..], b', c);
      ChannelSumRemove(b, k, c);
    }
  }

  /** The reducer is invariant under any reordering of the row, because the
      accumulation is a commutative sum. */
  lemma AveragePermutationInvariant(a: seq<Pixel>, b: seq<Pixel>)
    requires |a| > 0
    requires multiset(a) == multiset(b)
    ensures |b| > 0
    ensures AveragePixels(a) == AveragePixels(b)
  {
    assert |b| == |multiset(b)| == |multiset(a)| == |a|;
    var x, y := AveragePixels(a), AveragePixels(b);
    forall c
      ensures Get(x, c) == Get(y, c)
    {
      ChannelSumPermutation(a, b, c);
    }
    assert Get(x, R) == Get(y, R) && Get(x, G) == Get(y, G) && Get(x, B) == Get(y, B);
  }

  /** `rgbaToPixel`: each 16-bit channel reported by the image library is
      divided by 257 (0xffff / 0xff) to give an 8-bit channel; alpha is
      dropped. The result channel is the largest `v` with `257 * v` not
      above the input. */
  function RgbaToPixel(r: u32, g: u32, b: u32, a: u32): (p: Pixel)
    ensures 257 * p.r <= r as int < 257 * (p.r + 1)
    ensures 257 * p.g <= g as int < 257 * (p.g + 1)
    ensures 257 * p.b <= b as int < 257 * (p.b + 1)
    ensures r as int <= 0xffff ==> 0 <= p.r <= 0xff
    ensures g as int <= 0xffff ==> 0 <= p.g <= 0xff
    ensures b as int <= 0xffff ==> 0 <= p.b <= 0xff
  {
    Pixel((r / 257) as int, (g / 257) as int, (b / 257) as int)
  }

  /** Widening an 8-bit channel `c` to 16 bits as `257 * c` and narrowing it
      back returns `c`, whatever the alpha channel holds. */
  lemma RgbaToPixelInverts(r: int, g: int, b: int, a: u32)
    requires 0 <= r <= 0xff && 0 <= g <= 0xff && 0 <= b <= 0xff
    ensures RgbaToPixel((257 * r) as u32, (257 * g) as u32, (257 * b) as u32, a) == Pixel(r, g, b)
  {
    var p := RgbaToPixel((257 * r) as u32, (257 * g) as u32, (257 * b) as u32, a);
    if p.r != r {
      if p.r < r { MulMono(p.r + 1, r, 257); } else { MulMono(r + 1, p.r, 257); }
    }
    if p.g != g {
      if p.g < g { MulMono(p.g + 1, g, 257); } else { MulMono(g + 1, p.g, 257); }
    }
    if p.b != b {
      if p.b < b { MulMono(p.b + 1, b, 257); } else { MulMono(b + 1, p.b, 257); }
    }
  }

  /** The width `addPixels` iterates over: the length of the first row. */
  function FirstRowWidth(p: Grid): nat {
    if |p| == 0 then 0 else |p[0]|
  }

  /** `addPixels`: adds `p1[i][j]` into `p[i][j]` for every row `i` of `p` and
      every column `j` below the length of `p`'s first row. Indexing panics
      unless every row of `p`, and the matching row of `p1`, is at least that
      long; when that length is 0 the inner loop never runs and `p1` is not
      read at all. A Go slice is updated in place; here the updated grid is
      returned. */
  method AddPixels(p: Grid, p1: Grid) returns (q: Grid)
    requires FirstRowWidth(p) == 0 || |p1| >= |p|
    requires forall i :: 0 <= i < |p| ==>
      |p[i]| >= FirstRowWidth(p) && (FirstRowWidth(p) == 0 || |p1[i]| >= FirstRowWidth(p))
    ensures |q| == |p|
    ensures forall i :: 0 <= i < |p| ==> |q[i]| == |p[i]|
    ensures forall i, j :: 0 <= i < |p| && 0 <= j < |p[i]| ==>
      q[i][j] == if j < FirstRowWidth(p) then Add(p[i][j], p1[i][j]) else p[i][j]
  {
    var width := FirstRowWidth(p);
    q := p;
    var i := 0;
    while i < |p|
      invariant 0 <= i <= |p|
      invariant |q| == |p|
      invariant forall k :: 0 <= k < |p| ==> |q[k]| == |p[k]|
      invariant forall k, j :: 0 <= k < i && 0 <= j < |p[k]| ==>
        q[k][j] == if j < width then Add(p[k][j], p1[k][j]) else p[k][j]
      invariant forall k :: i <= k < |p| ==> q[k] == p[k]
    {
      var j := 0;
      while j < width
        invariant 0 <= j <= width
        invariant |q| == |p|
        invariant forall k :: 0 <= k < |p| ==> |q[k]| == |p[k]|
        invariant forall k, m :: 0 <= k < i && 0 <= m < |p[k]| ==>
          q[k][m] == if m < width then Add(p[k][m], p1[k][m]) else p[k][m]
        invariant forall m :: 0 <= m < |p[i]| ==>
          q[i][m] == if m < j then Add(p[i][m], p1[i][m]) else p[i][m]
        invariant forall k :: i < k < |p| ==> q[k] == p[k]
      {
        q := q[i := q[i][j := Add(q[i][j], p1[i][j])]];
        j := j + 1;
      }
      i := i + 1;
    }
  }
}

=== FILE: ints.dfy ===
/** Machine integer widths of the two implementations, and Go's signed
    integer division, which truncates toward zero (Dafny's own `/` is
    Euclidean). */
module Ints {

  newtype u8 = x: int | 0 <= x < 0x100
  newtype u32 = x: int | 0 <= x < 0x1_0000_0000

  function Abs(x: int): nat {
    if x < 0 then -x else x
  }

  /** `a / b` on Go integers. The remainder `a - q * b` is smaller than the
      divisor in magnitude and carries the sign of the dividend, which is
      what truncation toward zero means. */
  function TruncDiv(a: int, b: int): (q: int)
    requires b != 0
    ensures Abs(a - q * b) < Abs(b)
    ensures a - q * b == 0 || (a - q * b > 0 <==> a > 0)
  {
    if a >= 0 then
      if b > 0 then a / b else -(a / -b)
    else
      if b > 0 then -((-a) / b) else (-a) / (-b)
  }

  /** On non-negative operands Go's, Rust's and Dafny's divisions agree. */
  lemma TruncDivNonneg(a: int, b: int)
    requires a >= 0 && b > 0
    ensures TruncDiv(a, b) == a / b
  {
  }

  /** Division undoes multiplication exactly, whatever the signs. */
  lemma TruncDivExact(v: int, n: int)
    requires n != 0
    ensures TruncDiv(n * v, n) == v
  {
    var q := TruncDiv(n * v, n);
    assert Abs((v - q) * n) < Abs(n) by {
      assert n * v - q * n == (v - q) * n;
    }
    if v != q {
      MulAbsGrows(v - q, n);
    }
  }

  lemma MulAbsGrows(x: int, n: int)
    requires x != 0 && n != 0
    ensures Abs(x * n) >= Abs(n)
  {
    var ax, an := Abs(x), Abs(n);
    MulMono(1, ax, an);
    assert Abs(x * n) == ax * an by {
      if x < 0 && n < 0 {
        assert x * n == (-x) * (-n);
      } else if x < 0 {
        assert x * n == -((-x) * n);
      } else if n < 0 {
        assert x * n == -(x * (-n));
      }
    }
  }

  /** Multiplication by a non-negative factor preserves order. */
  lemma MulMono(a: int, b: int, n: int)
    requires a <= b && n >= 0
    ensures a * n <= b * n
  {
    MulNonneg(b - a, n);
    assert b * n - a * n == (b - a) * n;
  }

  /** A truncated quotient of a value lying between `n * lo` and `n * hi`
      lies between `lo` and `hi`: neither rounding direction can leave the
      interval, because its end points are whole numbers. */
  lemma TruncDivBetween(s: int, n: int, lo: int, hi: int)
    requires n > 0
    requires n * lo <= s <= n * hi
    ensures lo <= TruncDiv(s, n) <= hi
  {
    var q := TruncDiv(s, n);
    assert -n < s - q * n < n;
    MulSucc(hi, n);
    MulSucc(q, n);
    MulComm(hi, n);
    MulComm(lo, n);
    if q > hi {
      MulMono(hi + 1, q, n);
      assert false;
    }
    if q < lo {
      MulMono(q + 1, lo, n);
      assert false;
    }
  }

  lemma MulSucc(a: int, n: int)
    ensures (a + 1) * n == a * n + n
  {
  }

  lemma MulComm(a: int, n: int)
    ensures a * n == n * a
  {
  }

  lemma MulNonneg(a: int, n: int)
    requires a >= 0 && n >= 0
    ensures a * n >= 0
  {
  }

  /** Euclidean division is determined by its defining equation: a
      quotient and remainder with `x == q * d + r` and `0 <= r < d` are
      `x / d` and `x % d`. */
  lemma DivModUnique(x: int, d: int, q: int, r: int)
    requires d > 0 && x == q * d + r && 0 <= r < d
    ensures x / d == q && x % d == r
  {
    var q0, r0 := x / d, x % d;
    assert x == q0 * d + r0 && 0 <= r0 < d;
    if q0 > q {
      MulMono(q + 1, q0, d);
      assert false;
    }
    if q0 < q {
      MulMono(q0 + 1, q, d);
      assert false;
    }
  }
}

=== FILE: wrappers.dfy ===
/** Failure-compatible result types shared by the model. */
module Wrappers {

  /** A value that may be missing. */
  datatype Option<+T> = None | Some(value: T)

  /** Either a computed value or the reason the computation stopped. */
  datatype Result<+T, +E> = Success(value: T) | Failure(error: E) {

    predicate IsFailure() {
      Failure?
    }

    function PropagateFailure<U>(): Result<U, E>
      requires Failure?
    {
      Failure(error)
    }

    function Extract(): T
      requires Success?
    {
      value
    }
  }
}
